=== FILE: README.md ===
# JD Logistics carrier integration — a Dafny model

This project models the JD Logistics (京东物流) integration of two Odoo delivery modules:

- the `jd` delivery type, `delivery_jd`;
- the rule-priced `jd_mix_rule` delivery type, `delivery_jd_mix_rule`.

It covers four parts:

- **The signed-request builder `JDApi`.** This is the canonical signing content, the seven-entry query, the algorithm dispatch of `sign`, the request URI and the three order endpoints.
- **The OAuth round trip.** `action_oauth_jd_delivery` issues a signed `state`; the `/jd_delivery/return` route checks it, exchanges the code and writes the tokens. The expiries are moved from Beijing time to UTC. The `state` is the anti-CSRF state of the authorization-code grant (sections 4.1.1 and 10.12 of RFC 6749).
- **The carrier methods of both delivery types.** These are rate, send, cancel, tracking link and availability. Each maps a provider reply to an Odoo result or a raised error.
- **The helpers.** These are configuration validation and the production/UAT host selection.

Python exceptions are values of `Base.Error`, and every fallible operation returns `Base.Result`. Python truthiness is written out (`Base.TruthyText`, `Json.Truthy`).

Everything outside the modelled code is a parameter:

- the provider's reply to a request (`DeliveryJd.Provider`, `DeliveryJdMixRule.MixProvider`, `DeliveryJdMixRule.PrecheckReply`);
- the hash primitives (`Hmac.Hashes`);
- `json.dumps`/`json.loads`, Odoo's keyed `hmac` tool, `repr` and `url_join` (`DeliveryJd.Env`);
- the clock and the local timezone (`JdApi.Host`);
- the sale-order search (`findOrder`);
- the result of the inherited `base_on_rule_*` methods and of `super()._is_available_for_order`.

A loop that sends requests returns `sent`, the list of payloads it sent, so "later pickings are not attempted" can be stated.

Modules, one per file:

| module | file | models |
|---|---|---|
| `Base` | base.dfy | the Error and Result types, truthiness, ordered parameter lists (`Params`, `Lookup`, `EncodedUrl`) |
| `Json` | json.dfy | decoded JSON values, and `d[key]`, `.get`, `or`, `str()` and `int()` on them |
| `Decimal` | decimal.dfy | `str(int)`, `int(str)`, true division truncated toward zero |
| `DateTime` | datetime.dfy | naive datetimes, `%Y-%m-%d %H:%M:%S` text, ± whole hours |
| `Utf8`, `Hex`, `Base64`, `Hmac` | utf8.dfy, hex.dfy, base64.dfy, hmac.dfy | `str.encode("UTF-8")`, `bytes.hex()`, RFC 4648 base64, RFC 2104 HMAC over an injected hash |
| `Signer` | signer.dfy | `JDApi.sign` |
| `JdApi` | jd_api.dfy | `JDApi`: defaults, `compute_params`, `headers`, `_request`, `orders_*` |
| `Shipping` | shipping.dfy | records and payloads shared by both delivery types, the tracking link, the cancel loop |
| `DeliveryJd` | delivery_jd.dfy | delivery_jd/models/delivery_carrier_inherit.py |
| `Controller` | controller.dfy | delivery_jd/controllers/main.py |
| `DeliveryJdMixRule` | mix_rule.dfy | delivery_jd_mix_rule/models/delivery_carrier_inherit.py |

## Model

| member | source | states |
|---|---|---|
| JdApi.ClientDefaults | delivery_jd/api/jd_api.py:11-24 | A client built from credentials alone uses base `https://api.jdl.com`, domain `ECAP` and algorithm `md5-salt` |
| JdApi.FlattenSignedFields | delivery_jd/api/jd_api.py:54-63 | The six signed fields flatten to exactly `access_token`+token+`app_key`+key+`method`+path+`param_json`+body+`timestamp`+ts+`v`+version |
| JdApi.SigningContent | delivery_jd/api/jd_api.py:54-63 | The content is the secret, the six fields in order, then the secret again; it begins and ends with the app secret |
| JdApi.SignedNamesAscending | delivery_jd/api/jd_api.py:55-62 | The signed field names appear in strictly ascending lexicographic order |
| JdApi.SignedBytesBracketedBySecret | delivery_jd/api/jd_api.py:64 | The UTF-8 bytes that get signed begin and end with the UTF-8 bytes of the secret |
| JdApi.Query | delivery_jd/api/jd_api.py:65-73 | The query has exactly the keys `LOP-DN`, `app_key`, `access_token`, `timestamp`, `v`, `sign`, `algorithm`, in that order |
| JdApi.QueryValues | delivery_jd/api/jd_api.py:65-73 | Each query key carries its value: domain, key, token, timestamp, `2.0`, signature, algorithm name |
| JdApi.ComputeParams | delivery_jd/api/jd_api.py:52-74 | Succeeds iff the algorithm is supported; otherwise NotImplementedError naming the algorithm (the corrected signer, see Left out). The `timestamp` value is the one clock reading, the same one inside the signed content. The provider, recomputing the content from the query, accepts the signature |
| JdApi.UtcOffsetHours | delivery_jd/api/jd_api.py:28 | The `lop-tz` hour offset is `-timezone / 3600` truncated toward zero, not floored |
| JdApi.TimezoneHintExamples | delivery_jd/api/jd_api.py:26-34 | `lop-tz` is "8" for UTC+8, "5" for UTC+5:30 and "-3" for UTC−3:30 |
| JdApi.Request | delivery_jd/api/jd_api.py:76-81 | The URI is the base followed by the path. The path is the signed `method` and the UTF-8 body decodes to the signed `param_json`. The provider accepts the request, which carries the fixed headers |
| JdApi.Call | delivery_jd/api/jd_api.py:83-93 | Each order operation POSTs to base + its fixed path, signed, with the single clock reading as `timestamp` |
| JdApi.PathsDistinct | delivery_jd/api/jd_api.py:83-93 | The three operations use three distinct paths, all under `/ecap/v1/orders/` |
| Signer.HmacHash | delivery_jd/api/jd_api.py:42-49 | Exactly the four HMAC algorithm names select a hash |
| Hmac.ZeroPaddedKeyEquivalent | delivery_jd/api/jd_api.py:42-49 | A property of `Mac` that section 2 of RFC 2104 implies, stated without its definition: a short key and the same key with a zero byte appended give the same MAC |
| Hmac.LongKeyHashed | delivery_jd/api/jd_api.py:42-49 | A property of `Mac` that section 2 of RFC 2104 implies, stated without its definition: a key longer than the block gives the same MAC as its own digest |
| Signer.Dispatch | delivery_jd/api/jd_api.py:37-49 | A signature exists iff the name is supported. `md5-salt` gives 32 lowercase hex characters that decode to the MD5 digest of the data. An HMAC name gives base64 that decodes to the HMAC of the data keyed by the secret |
| Signer.SignAsWritten | delivery_jd/api/jd_api.py:37-50 | As written: an unknown name fails with a TypeError (calling the `NotImplemented` constant), never with a fallback signature |
| Signer.Sign | delivery_jd/api/jd_api.py:37-50 | As intended: an unknown name fails with NotImplementedError whose message names the algorithm; supported names sign |
| Signer.SignAgreesOnSupported | delivery_jd/api/jd_api.py:37-50 | The written and the intended signer succeed on the same names and agree whenever they succeed |
| Signer.UnsupportedNameLost | delivery_jd/api/jd_api.py:50 | With `HMacSHA384` the written code raises a TypeError, where the intended code raises NotImplementedError("Algorithm HMacSHA384 not supported yet") |
| Signer.Md5SaltIgnoresSecret | delivery_jd/api/jd_api.py:38-41 | `md5-salt` always succeeds and does not depend on the secret |
| DeliveryJd.AccessInfo | delivery_jd/models/delivery_carrier_inherit.py:27-32 | Succeeds iff key and secret are both truthy, returning them unchanged; otherwise the ValidationError asking for the keys |
| DeliveryJd.OauthUrl | delivery_jd/models/delivery_carrier_inherit.py:34-35 | The OAuth host is `https://oauth.jdl.com` exactly in production |
| DeliveryJd.ApiUrl | delivery_jd/models/delivery_carrier_inherit.py:37-38 | The API host is `https://api.jdl.com`, the client's default, exactly in production |
| DeliveryJd.UatMirrorsProd | delivery_jd/models/delivery_carrier_inherit.py:34-38 | Each test host is its production host with a `uat-` prefix; OAuth and API hosts differ |
| DeliveryJd.ActionOauth | delivery_jd/models/delivery_carrier_inherit.py:40-61 | Fails iff the keys are missing. Otherwise the URL is the environment's `/oauth/authorize?` with `response_type=code`, the app key, the joined `jd_delivery/return` callback and the JSON state {id, keyed signature of `str(id)`}, in that order, in the same window |
| DeliveryJd.ToUtc | delivery_jd/models/delivery_carrier_inherit.py:71 | Succeeds iff the text is a valid timestamp at least eight hours after year 1 begins; the result is exactly eight hours earlier. Empty text is a TypeError, bad text a ValueError, underflow an OverflowError |
| DeliveryJd.ReadGrant | delivery_jd/models/delivery_carrier_inherit.py:70-77 | Succeeds iff all four members are present and both expiries convert. Tokens are copied verbatim and expiries shifted by −8h. Errors come in the order of the dict: accessToken, accessExpire and its conversion, refreshToken, refreshExpire and its conversion. The first failure is raised: a missing member as its KeyError, a failed conversion as its own error |
| DeliveryJd.Authorize | delivery_jd/models/delivery_carrier_inherit.py:63-77 | Without keys nothing is sent. Otherwise the token request goes to the environment's `/oauth/token?` with code, secret and key, and the grant is written iff the reply is complete |
| DeliveryJd.ExpiryExample | delivery_jd/models/delivery_carrier_inherit.py:71 | "2024-06-01 08:00:00" is stored as 2024-06-01 00:00:00 |
| DeliveryJd.ExpiryCrossesLeapDay | delivery_jd/models/delivery_carrier_inherit.py:71 | "2024-03-01 03:30:15" is stored as 2024-02-29 19:30:15 |
| DeliveryJd.CarrierRequestsSigned | delivery_jd/models/delivery_carrier_inherit.py:87-89 | A carrier's client (md5-salt) always builds its request. The request goes to the carrier's environment and passes the provider's signature check |
| DeliveryJd.RateOutcome | delivery_jd/models/delivery_carrier_inherit.py:95-98 | A failed reply gives price 0 with the provider's `msg`, or a KeyError without one. A successful reply gives `data.sumMoney` as the price |
| DeliveryJd.RateShipment | delivery_jd/models/delivery_carrier_inherit.py:79-98 | Four outcomes. No done picking: 京东物流还未发货. First done picking without a waybill: 京东物流单号有误. Otherwise, missing keys or an unset token raise; else the fee query of that waybill is mapped by RateOutcome. Success implies a shipped, waybilled picking |
| DeliveryJd.RateIgnoresUnshipped | delivery_jd/models/delivery_carrier_inherit.py:79-98 | Rating only the done pickings gives the same result as rating all of them |
| DeliveryJd.RateIsChargedFee | delivery_jd/models/delivery_carrier_inherit.py:86-98 | A successful rate is the `sumMoney` of the successful fee query for the first done picking's waybill, made with the carrier's key, secret and token |
| DeliveryJd.SendPayload | delivery_jd/models/delivery_carrier_inherit.py:113-145 | The create payload exists iff the order has a line, otherwise IndexError. It names the picking origin as orderId, the current company as sender, the order's shipping partner as receiver, integer orderOrigin 1 and the carrier's customer code, with the first line's product |
| DeliveryJd.ShipmentOf | delivery_jd/models/delivery_carrier_inherit.py:150-153 | The line's tracking number is `data.waybillCode` and its price is `freightPre or 0`. It succeeds on an object reply iff the waybill code is present |
| DeliveryJd.SendShipping | delivery_jd/models/delivery_carrier_inherit.py:100-153 | Missing keys, then a missing order, raise before any call. An order with no line raises the IndexError of `order_line[0]`, and an unset token raises the TypeError of the signing join, both before any request. A failed reply raises `msg`. A successful one gives the one-line list of its shipment |
| DeliveryJd.SentOnlyWhenAccepted | delivery_jd/models/delivery_carrier_inherit.py:100-153 | A shipment is reported only when the keys and the token are set, the order is found and has a line, and JD accepted the create request. The list is then exactly the reply's shipment line |
| DeliveryJd.MissingOrderNoCall | delivery_jd/models/delivery_carrier_inherit.py:109-111 | With no order found, the outcome is an error and does not depend on the provider at all |
| DeliveryJd.CancelShipment | delivery_jd/models/delivery_carrier_inherit.py:155-171 | With no pickings nothing is signed or sent and it returns normally, even with an unset token. Otherwise one cancel per picking in order, with orderOrigin integer 1. It succeeds iff every picking's cancel succeeds. On failure it stops at the first failing picking and raises its `subMsg`; later pickings are never sent |
| Shipping.CancelPayloadFields | delivery_jd/models/delivery_carrier_inherit.py:161-168 | A cancel payload reads back the picking's waybill, the caller's orderOrigin and customer code, and cancelType 1 |
| Shipping.CreatePayloadFields | delivery_jd/models/delivery_carrier_inherit.py:113-144 | A create payload reads back the origin as orderId, the receiver, the caller's orderOrigin and customer code, and product code `ed-m-0001` |
| Shipping.DonePickings | delivery_jd/models/delivery_carrier_inherit.py:81 | The filter keeps exactly the done pickings, and a done first picking stays first |
| Shipping.DonePickingsHead | delivery_jd/models/delivery_carrier_inherit.py:81-82 | The head of the filtered list is the first done picking |
| Shipping.DonePickingsIdempotent | delivery_jd/models/delivery_carrier_inherit.py:81 | Filtering the done pickings twice is filtering once |
| Shipping.TrackingLink | delivery_jd/models/delivery_carrier_inherit.py:173-174 | Every tracking link starts with the JD order-search prefix |
| Shipping.TrackingLinkRoundTrip | delivery_jd/models/delivery_carrier_inherit.py:173-174 | The waybill read back from a link is the stored reference |
| Shipping.TrackingLinkInjective | delivery_jd_mix_rule/models/delivery_carrier_inherit.py:131-132 | Two links are equal iff their references are, except that an unset reference and the literal "False" collide |
| Shipping.CancelEach | delivery_jd_mix_rule/models/delivery_carrier_inherit.py:118-129 | Sends pickings' cancel payloads in order and succeeds iff all replies succeed. Otherwise only the last one sent failed, and the raised error is its `subMsg` |
| Controller.CompareDigest | delivery_jd/controllers/main.py:34 | Equality on two ASCII texts; a non-text or non-ASCII operand is a TypeError |
| Controller.CarrierUrl | delivery_jd/controllers/main.py:46-55 | `/web#` with id, model `delivery.carrier`, view_type `form` first, then the action id only when the action exists |
| Controller.Check | delivery_jd/controllers/main.py:21-41 | Login redirect iff the query is empty, there is no session, or code/state is missing or not JSON. Admission implies the state's signature equals the keyed signature of `str(id)`, and the guard holds. Otherwise the errors come in source order: a missing carrier id, then a missing signature, propagate as their KeyErrors, and a signature that is not ASCII text propagates the TypeError of the comparison. A comparable but different signature gives 403 |
| Controller.Exchanged | delivery_jd/controllers/main.py:42-44 | The token request is sent iff the keys exist, in the browsed record's environment (UAT for an absent record). Only that record can change; a redirect is 302 to `/web#…`; never 403 |
| Controller.Written | delivery_jd/models/delivery_carrier_inherit.py:72-77 | The write touches only the browsed record, with the grant; an empty recordset writes nothing |
| Controller.Handle | delivery_jd/controllers/main.py:19-44 | Each verdict of the checks becomes its reply (login 303, 403, raised error) with nothing sent or written; only an admitted state reaches the exchange |
| Controller.HandleCallback | delivery_jd/controllers/main.py:19-44 | As intended: a 403 means nothing was sent or written. A token request implies an admitted state naming an existing carrier, exchanged in that carrier's environment |
| Controller.HandleCallbackAsWritten | delivery_jd/controllers/main.py:37-42 | As written: a token request implies only a truthy id. For an id naming no carrier it still goes out, against UAT, and nothing is written |
| Controller.IssuedStateVerifies | delivery_jd/controllers/main.py:29-44 | Round trip: when `json.loads` reads the issued state back, the state the authorize action issues for carrier N passes the callback for N. The code is exchanged in N's environment, and a complete reply is written to N alone before redirecting to N's form |
| Controller.IssuedStateAdmitted | delivery_jd/controllers/main.py:29-41 | The callback's checks admit an issued state with N's id and the returned code |
| Controller.IssuedStateAdmittedAsWritten | delivery_jd/controllers/main.py:29-41 | As written, the checks admit an issued state with a non-zero id N and the returned code, whether or not carrier N exists; a zero id is refused by the truthiness guard |
| Controller.IssuedStateVerifiesAsWritten | delivery_jd/controllers/main.py:29-44 | Round trip through the route as written: for an existing carrier N with a non-zero id, the code is exchanged in N's environment and a complete reply is written to N alone before redirecting to N's form |
| Controller.StateMembers | delivery_jd/models/delivery_carrier_inherit.py:44-49 | An issued state's two members read back as written |
| Controller.TamperedStateForbidden | delivery_jd/controllers/main.py:34-36 | Any decoded state object (extra, reordered or repeated members included) whose ASCII text signature is not the one computed for its id gives 403, with no token request and no change, under either guard |
| Controller.MissingCarrierIdPropagates | delivery_jd/controllers/main.py:29 | A state without `delivery_carrier_id` raises that KeyError, not a redirect, and nothing is sent |
| Controller.MissingSignaturePropagates | delivery_jd/controllers/main.py:29-30 | A state that names a carrier but has no `signature` raises that KeyError, not a 403, and nothing is sent or written |
| Controller.UncomparableSignaturePropagates | delivery_jd/controllers/main.py:34 | A signature that is not ASCII text raises the TypeError of `hmac.compare_digest`, not a 403, and nothing is sent or written |
| Controller.MissingCarrierReachesExchange | delivery_jd/controllers/main.py:39 | Correctly signed state for absent carrier 7: the written route requests a token against UAT; the intended route answers 403 |
| DeliveryJdMixRule.ConfigParams | delivery_jd_mix_rule/models/delivery_carrier_inherit.py:25-36 | Succeeds iff key, secret, token and customer code are all truthy, returning them in order; otherwise the ValidationError |
| DeliveryJdMixRule.NewApi | delivery_jd_mix_rule/models/delivery_carrier_inherit.py:38-42 | The client is built from the first three parameters and the carrier's flags; the customer code is returned beside it |
| DeliveryJdMixRule.PrecheckPassed | delivery_jd_mix_rule/models/delivery_carrier_inherit.py:61-63 | An exception counts as not passed. A reply passes iff its `success` member is truthy; a non-object reply raises AttributeError |
| DeliveryJdMixRule.RateShipment | delivery_jd_mix_rule/models/delivery_carrier_inherit.py:44-68 | A configuration error propagates. A failed precheck gives exactly {False, 0.0, 地址不支持京東物流, False}. A passed one returns the base-rule rating; any success is the base-rule one |
| DeliveryJdMixRule.PrecheckExceptionIsFailure | delivery_jd_mix_rule/models/delivery_carrier_inherit.py:47-67 | A raising precheck and an unsuccessful reply give the same "address unsupported" result |
| DeliveryJdMixRule.IsAvailable | delivery_jd_mix_rule/models/delivery_carrier_inherit.py:17-21 | Available iff `super()` says so and, for `jd_mix_rule`, the rating succeeds; a rating error propagates |
| DeliveryJdMixRule.UnavailableWithoutRating | delivery_jd_mix_rule/models/delivery_carrier_inherit.py:17-21 | When `super()` is false the answer is False whatever the rating would be |
| DeliveryJdMixRule.UnsupportedAddressUnavailable | delivery_jd_mix_rule/models/delivery_carrier_inherit.py:17-21 | A carrier whose precheck fails is not available for the order |
| DeliveryJdMixRule.CreateFor | delivery_jd_mix_rule/models/delivery_carrier_inherit.py:74-107 | The create payload exists iff the order is found and has a line, otherwise IndexError. It names the picking origin as orderId, the order's company as sender, its shipping partner as receiver, text orderOrigin "1" and the configured customer code |
| DeliveryJdMixRule.CreatedWaybill | delivery_jd_mix_rule/models/delivery_carrier_inherit.py:112 | The waybill is `data.waybillCode`, present iff the reply has it |
| DeliveryJdMixRule.RegisterStep | delivery_jd_mix_rule/models/delivery_carrier_inherit.py:112 | Overwriting the next line's tracking number extends the registered prefix by one and keeps every price |
| DeliveryJdMixRule.RegisterEach | delivery_jd_mix_rule/models/delivery_carrier_inherit.py:73-113 | Payload i is the create payload of picking i. Succeeds iff every picking's payload is built and its reply is accepted with a `waybillCode` for an existing base-rule line. On success every line keeps its base price and line i carries the waybill returned for payload i. On failure every earlier picking was registered, and the error is that of the next payload's construction or of the last reply (its `msg`, the missing waybill, or the list index) |
| DeliveryJdMixRule.RegisterNext | delivery_jd_mix_rule/models/delivery_carrier_inherit.py:74-112 | One round for the next picking. It continues iff that picking registers; it then sends exactly that picking's payload and keeps the loop's facts. Otherwise it stops with the error of the payload's construction or of the reply, and every earlier picking stays registered |
| DeliveryJdMixRule.SendShipping | delivery_jd_mix_rule/models/delivery_carrier_inherit.py:70-113 | The base-rule error comes first, then the configuration error, with nothing sent. Otherwise it succeeds iff every picking registers against the base-rule list, and a failure is explained as in RegisterEach |
| DeliveryJdMixRule.CancelShipment | delivery_jd_mix_rule/models/delivery_carrier_inherit.py:115-129 | A configuration error sends nothing. Otherwise one cancel per picking with orderOrigin "1", stopping at the first failure and raising its `subMsg` |
| DateTime.MinusPlusHours | delivery_jd/models/delivery_carrier_inherit.py:71 | For a shift of under a day, shifting back by n hours undoes shifting forward, across day, month and year ends |
| DateTime.ParseFormat | delivery_jd/models/delivery_carrier_inherit.py:71 | `from_string` parses back the text form of every valid datetime |
| Json.PyIntOfRenderedInt | delivery_jd/controllers/main.py:31-38 | `int(str(n)) == n`: the id covered by the signature is the id browsed |

## Left out

- HTTP transport (`requests`) is not modelled. A provider reply is an input record with `success`, `msg`, `subMsg` and `data`. For `_request`, the model stops at the request it would send.
- The hash functions (MD5, SHA-1, SHA-256, SHA-512) are parameters with the right digest lengths. HMAC, hex, base64 and UTF-8 are implemented on top of them.
- Odoo's `hmac` tool is a parameter returning ASCII text. `hmac.compare_digest` is plain equality: its constant time cannot be expressed.
- The clock (`datetime.now`) and `time.timezone` are inputs of `JdApi.Host`.
- `json.dumps`/`json.loads` are parameters. The round-trip lemmas assume only that `loads` reads back the one state issued for the carrier (`Controller.StateReadsBack`), an object of an integer and a text.
- werkzeug's `url_encode`/`url_join` are not modelled: a URL is a prefix with an ordered key/value list, and `url_join` is a parameter.
- The Odoo ORM is not modelled. `search`, `env`, `_display_address` and `browse().exists()` become inputs: `findOrder`, the carrier map, the contact records. `write` is the map update.
- Access rights are not modelled: `sudo()` has no effect in the model, and the AccessError a `write` under the user's rights could raise is not represented.
- `base_on_rule_rate_shipment`, `base_on_rule_send_shipping` and `super()._is_available_for_order` are inputs.
- `DateTime.Parse` accepts only the full `YYYY-MM-DD HH:MM:SS` form and gives ValueError for any other text. The shorter forms that `fields.Datetime.from_string` also accepts are not modelled: it cuts its format to the length of the text, so `YYYY-MM-DD HH:MM`, `YYYY-MM-DD HH` and the date-only `YYYY-MM-DD` also parse. They are left out, because the provider sends the full form.
- JdApi.ComputeParams: signs with the corrected `Signer.Sign`, so an unsupported algorithm gives NotImplementedError naming it. The code as written raises TypeError there; `Signer.SignAsWritten` and the first Findings row model that. `JdApi.Request` and `JdApi.Call` inherit this.
- Json.PyInt: `int()` of a text is modelled only for an optional sign followed by ASCII digits (`Decimal.ParseInt`). Python also accepts surrounding whitespace, underscores between digits and non-ASCII digits; such a carrier id fails in the model where the code would go on. Only the server signs a state, and it writes the id as plain digits.
- `DeliveryJd.ReadGrant`: token reply members are strings only. A non-string expiry (a number, say) is not modelled.
- `DeliveryJdMixRule.CreateFor`: an order that is not found is modelled as the IndexError raised by `order.order_line[0]` on the empty recordset. The attribute reads before it yield False and do not raise.
- The sender differs between the types. In `jd` it is `self.env.company`, passed as the `company` parameter. In `jd_mix_rule` it is the order's company.
- A sale order's shipping partner is a required field, so `partner_shipping_id or partner_id` always yields the shipping partner.
- The `jd_mix_rule` API client (delivery_jd_mix_rule/api/jd_api.py) is not part of this model. It is represented by its constructor arguments (`MixClient`), the precheck reply and the create/cancel replies.
- `jd_get_default_custom_package_code` is the constant `DeliveryJd.DefaultPackageCode` and carries no contract.
- The settings modules (delivery_jd_hooks, delivery_jd_mix_rule_hooks), the manifests, the `choose.delivery.carrier` onchange and logging are not modelled; they hold no logic of the integration.
- The field declarations and `delivery_type` selections are reflected only in the `Carrier`, `MixCarrier` and `MixConfig` datatypes.

## Findings

| source | as written | input that shows it | evidently intended | confidence | as-written member | corrected member |
|---|---|---|---|---|---|---|
| delivery_jd/api/jd_api.py:50 | `raise NotImplemented(...)` calls the `NotImplemented` constant, which raises TypeError ('NotImplementedType' object is not callable); the message naming the algorithm is lost | `sign("HMacSHA384", data, secret)` | raise NotImplementedError("Algorithm HMacSHA384 not supported yet") | high; not executed | Signer.SignAsWritten (witness Signer.UnsupportedNameLost) | Signer.Sign |
| delivery_jd/controllers/main.py:39 | the existence guard tests `delivery_carrier_id` instead of the browsed `delivery_carrier` | a correctly signed state naming carrier id 7 when no carrier 7 exists | 403 Forbidden when the record does not exist | high; not executed | Controller.HandleCallbackAsWritten (witness Controller.MissingCarrierReachesExchange) | Controller.HandleCallback |

In the second row, the written route sends the token request to the UAT OAuth server, because an empty recordset is not in production. The empty recordset writes nothing, and the browser is then redirected to a form for a record that does not exist.

The route's final redirect uses werkzeug's default status 302. The model follows the code; a 303 there would be wrong.

=== FILE: base.dfy ===
/** Shared vocabulary of the model: bytes, optional values, and the exceptions
    the carrier integration can raise, carried in a Result instead of being thrown. */
module Base {

  /** One octet, as Python's `bytes` elements. */
  type byte = b: int | 0 <= b < 256

  type Bytes = seq<byte>

  datatype Option<+T> = None | Some(value: T)

  /** The Python exception classes (and the werkzeug HTTP exception) that the modelled
      code raises or lets propagate. Each carries the message it is raised with. */
  datatype Error =
    | ValidationError(message: string)   // odoo.exceptions.ValidationError
    | KeyError(key: string)              // a dict lookup of an absent key
    | IndexError(what: string)           // indexing past the end of a list or recordset
    | TypeError(message: string)         // an operation applied to the wrong type
    | ValueError(message: string)        // int() or strptime() on a malformed string
    | OverflowError(message: string)     // datetime arithmetic leaving year 1..9999
    | NotImplementedError(message: string)
    | AttributeError(name: string)       // a method looked up on a value that lacks it

  datatype Result<+T> = Ok(value: T) | Err(error: Error) {
    predicate IsFailure() { Err? }

    function PropagateFailure<U>(): Result<U>
      requires Err?
    {
      Err(error)
    }

    function Extract(): T
      requires Ok?
    {
      value
    }
  }

  /** Python truthiness of an optional text value, as returned by `get_param` or read
      from a Char field: unset (None/False) and the empty string are both falsy. */
  predicate TruthyText(v: Option<string>) {
    v.Some? && v.value != ""
  }

  /** True when every character is 7-bit ASCII. */
  predicate IsAscii(s: string) {
    forall i :: 0 <= i < |s| ==> s[i] as int < 128
  }

  /** An ordered list of query or form parameters, as passed to `url_encode`. */
  type Params = seq<(string, string)>

  /** The value of the first parameter named `key`, if any. */
  function Lookup(ps: Params, key: string): Option<string>
  {
    if |ps| == 0 then None
    else if ps[0].0 == key then Some(ps[0].1)
    else Lookup(ps[1..], key)
  }

  /** The parameter found is the first one carrying the key. */
  lemma {:induction false} LookupFirst(ps: Params, i: int)
    requires 0 <= i < |ps|
    requires forall j :: 0 <= j < i ==> ps[j].0 != ps[i].0
    ensures Lookup(ps, ps[i].0) == Some(ps[i].1)
  {
    if i > 0 {
      assert ps[1..][i - 1] == ps[i];
      LookupFirst(ps[1..], i - 1);
    }
  }

  /** The keys of a parameter list, in order. */
  function Keys(ps: Params): (ks: seq<string>)
    ensures |ks| == |ps|
    ensures forall i :: 0 <= i < |ps| ==> ks[i] == ps[i].0
  {
    if |ps| == 0 then [] else [ps[0].0] + Keys(ps[1..])
  }

  /** A URL made of a fixed prefix (ending in `?` or `#`) and the parameters that
      `url_encode` renders after it; the percent-encoding itself is not modelled. */
  datatype EncodedUrl = EncodedUrl(prefix: string, params: Params)

  /** A sequence is its first three elements followed by the rest. */
  lemma ThreeAndRest<T>(s: seq<T>)
    requires |s| >= 3
    ensures [s[0], s[1], s[2]] + s[3..] == s
  {
  }

  /** A sequence is its head followed by its tail. */
  lemma HeadAndTail<T>(s: seq<T>)
    requires |s| >= 1
    ensures [s[0]] + s[1..] == s
  {
  }
}

=== FILE: base64.dfy ===
/** `base64.b64encode(...).decode("UTF-8")`: the base64 alphabet of RFC 4648 section 4
    with `=` padding, applied to HMAC digests by the signer. */
module Base64 {
  import opened Base

  predicate IsBase64Char(c: char) {
    'A' <= c <= 'Z' || 'a' <= c <= 'z' || '0' <= c <= '9' || c == '+' || c == '/'
  }

  /** The character for a 6-bit value (RFC 4648 section 4, Table 1). */
  function CharOf(v: int): (c: char)
    requires 0 <= v < 64
    ensures IsBase64Char(c)
  {
    if v < 26 then ('A' as int + v) as char
    else if v < 52 then ('a' as int + v - 26) as char
    else if v < 62 then ('0' as int + v - 52) as char
    else if v == 62 then '+'
    else '/'
  }

  function ValueOf(c: char): (v: int)
    requires IsBase64Char(c)
    ensures 0 <= v < 64 && CharOf(v) == c
  {
    if 'A' <= c <= 'Z' then c as int - 'A' as int
    else if 'a' <= c <= 'z' then c as int - 'a' as int + 26
    else if '0' <= c <= '9' then c as int - '0' as int + 52
    else if c == '+' then 62
    else 63
  }

  /** Four characters for one group of three bytes: each character takes the next six
      bits, most significant first. */
  function EncodeGroup(b0: byte, b1: byte, b2: byte): string {
    [CharOf(b0 / 4), CharOf((b0 % 4) * 16 + b1 / 16), CharOf((b1 % 16) * 4 + b2 / 64), CharOf(b2 % 64)]
  }

  /** Well-formed output: every character is in the alphabet except trailing padding. */
  predicate IsPaddedBase64(s: string) {
    |s| % 4 == 0 &&
    forall i :: 0 <= i < |s| ==> IsBase64Char(s[i]) || (s[i] == '=' && i >= |s| - 2)
  }

  function Encode(bs: Bytes): (s: string)
    ensures |s| == 4 * ((|bs| + 2) / 3)
    ensures IsPaddedBase64(s)
    decreases |bs|
  {
    if |bs| == 0 then ""
    else if |bs| == 1 then EncodeGroup(bs[0], 0, 0)[..2] + "=="
    else if |bs| == 2 then EncodeGroup(bs[0], bs[1], 0)[..3] + "="
    else
      var g, rest := EncodeGroup(bs[0], bs[1], bs[2]), Encode(bs[3..]);
      PrependGroup(g, rest);
      g + rest
  }

  /** A full group in front of well-formed output keeps it well-formed. */
  lemma PrependGroup(g: string, rest: string)
    requires |g| == 4 && forall i :: 0 <= i < 4 ==> IsBase64Char(g[i])
    requires IsPaddedBase64(rest)
    ensures IsPaddedBase64(g + rest)
  {
    var s := g + rest;
    assert forall i :: 4 <= i < |s| ==> s[i] == rest[i - 4];
  }

  /** Three bytes back from four characters (the last ones possibly padding stand-ins). */
  function DecodeGroup(c0: char, c1: char, c2: char, c3: char): (bs: Bytes)
    requires IsBase64Char(c0) && IsBase64Char(c1) && IsBase64Char(c2) && IsBase64Char(c3)
    ensures |bs| == 3
  {
    var v0, v1, v2, v3 := ValueOf(c0), ValueOf(c1), ValueOf(c2), ValueOf(c3);
    [v0 * 4 + v1 / 16, (v1 % 16) * 16 + v2 / 4, (v2 % 4) * 64 + v3]
  }

  /** `base64.b64decode` of padded text; None where Python raises binascii.Error. */
  function Decode(s: string): Option<Bytes>
    decreases |s|
  {
    if |s| == 0 then Some([])
    else if |s| < 4 then None
    else if |s| == 4 && IsBase64Char(s[0]) && IsBase64Char(s[1]) && s[2] == '=' && s[3] == '=' then
      Some(DecodeGroup(s[0], s[1], 'A', 'A')[..1])
    else if |s| == 4 && IsBase64Char(s[0]) && IsBase64Char(s[1]) && IsBase64Char(s[2]) && s[3] == '=' then
      Some(DecodeGroup(s[0], s[1], s[2], 'A')[..2])
    else if IsBase64Char(s[0]) && IsBase64Char(s[1]) && IsBase64Char(s[2]) && IsBase64Char(s[3]) then
      match Decode(s[4..])
      case None => None
      case Some(rest) => Some(DecodeGroup(s[0], s[1], s[2], s[3]) + rest)
    else None
  }

  lemma ValueOfCharOf(v: int)
    requires 0 <= v < 64
    ensures ValueOf(CharOf(v)) == v
  {
  }

  lemma SplitBits(b0: byte, b1: byte, b2: byte)
    ensures ((b0 % 4) * 16 + b1 / 16) / 16 == b0 % 4
    ensures ((b0 % 4) * 16 + b1 / 16) % 16 == b1 / 16
    ensures ((b1 % 16) * 4 + b2 / 64) / 4 == b1 % 16
    ensures ((b1 % 16) * 4 + b2 / 64) % 4 == b2 / 64
  {
  }

  lemma GroupRoundTrip(b0: byte, b1: byte, b2: byte)
    ensures var g := EncodeGroup(b0, b1, b2);
      DecodeGroup(g[0], g[1], g[2], g[3]) == [b0, b1, b2]
  {
    var v0, v1, v2, v3 := b0 / 4, (b0 % 4) * 16 + b1 / 16, (b1 % 16) * 4 + b2 / 64, b2 % 64;
    ValueOfCharOf(v0);
    ValueOfCharOf(v1);
    ValueOfCharOf(v2);
    ValueOfCharOf(v3);
    SplitBits(b0, b1, b2);
    var g := EncodeGroup(b0, b1, b2);
    assert ValueOf(g[0]) == v0 && ValueOf(g[1]) == v1 && ValueOf(g[2]) == v2 && ValueOf(g[3]) == v3;
    assert v0 * 4 + b0 % 4 == b0;
    assert (b1 / 16) * 16 + b1 % 16 == b1;
    assert (b2 / 64) * 64 + v3 == b2;
  }

  /** The padded groups: the 6-bit values cut off by padding are zero, so `A` stands in for them. */
  lemma PaddedGroupRoundTrip(b0: byte, b1: byte)
    ensures var g := EncodeGroup(b0, b1, 0);
      g[3] == 'A' && DecodeGroup(g[0], g[1], g[2], 'A')[..2] == [b0, b1]
    ensures var g := EncodeGroup(b0, 0, 0);
      g[2] == 'A' && g[3] == 'A' && DecodeGroup(g[0], g[1], 'A', 'A')[..1] == [b0]
  {
    GroupRoundTrip(b0, b1, 0);
    GroupRoundTrip(b0, 0, 0);
  }

  lemma DecodeEncodeOne(bs: Bytes)
    requires |bs| == 1
    ensures Decode(Encode(bs)) == Some(bs)
  {
    PaddedGroupRoundTrip(bs[0], 0);
    var g := EncodeGroup(bs[0], 0, 0);
    var s := Encode(bs);
    assert s[0] == g[0] && s[1] == g[1] && s[2] == '=' && s[3] == '=';
    assert IsBase64Char(s[0]) && IsBase64Char(s[1]);
    assert Decode(s) == Some(DecodeGroup(s[0], s[1], 'A', 'A')[..1]);
    assert bs == [bs[0]];
  }

  lemma DecodeEncodeTwo(bs: Bytes)
    requires |bs| == 2
    ensures Decode(Encode(bs)) == Some(bs)
  {
    PaddedGroupRoundTrip(bs[0], bs[1]);
    var g := EncodeGroup(bs[0], bs[1], 0);
    var s := Encode(bs);
    assert s[0] == g[0] && s[1] == g[1] && s[2] == g[2] && s[3] == '=';
    assert IsBase64Char(s[2]) && s[2] != '=';
    assert Decode(s) == Some(DecodeGroup(s[0], s[1], s[2], 'A')[..2]);
    assert bs == [bs[0], bs[1]];
  }

  /** A leading group without padding decodes to its three bytes, followed by the rest. */
  lemma DecodeFullGroup(s: string)
    requires |s| >= 4 && IsBase64Char(s[0]) && IsBase64Char(s[1]) && IsBase64Char(s[2]) && IsBase64Char(s[3])
    ensures Decode(s) == (match Decode(s[4..])
                          case None => None
                          case Some(rest) => Some(DecodeGroup(s[0], s[1], s[2], s[3]) + rest))
  {
    assert s[2] != '=' && s[3] != '=';
  }

  /** Round trip: decoding the base64 text of any byte string gives the bytes back. */
  lemma {:induction false} DecodeEncode(bs: Bytes)
    ensures Decode(Encode(bs)) == Some(bs)
    decreases |bs|
  {
    if |bs| == 1 {
      DecodeEncodeOne(bs);
    } else if |bs| == 2 {
      DecodeEncodeTwo(bs);
    } else if |bs| >= 3 {
      var g, rest := EncodeGroup(bs[0], bs[1], bs[2]), Encode(bs[3..]);
      var s := g + rest;
      assert Encode(bs) == s;
      assert s[0] == g[0] && s[1] == g[1] && s[2] == g[2] && s[3] == g[3] && s[4..] == rest;
      DecodeFullGroup(s);
      GroupRoundTrip(bs[0], bs[1], bs[2]);
      DecodeEncode(bs[3..]);
      assert DecodeGroup(s[0], s[1], s[2], s[3]) == [bs[0], bs[1], bs[2]];
      ThreeAndRest(bs);
    }
  }
}

=== FILE: controller.dfy ===
/** The OAuth return route `/jd_delivery/return` (delivery_jd/controllers/main.py): the
    decision tree that turns the provider's redirect back into a login redirect, a 403,
    a propagated error, or a code exchange followed by a redirect to the carrier form.
    The route checks the anti-CSRF `state` of the authorization-code grant (sections
    4.1.1 and 10.12 of RFC 6749). */
module Controller {
  import opened Base
  import Json
  import Decimal
  import opened DeliveryJd

  /** The HTTP answer of the route. */
  datatype Reply =
    | Redirect(location: EncodedUrl, status: int)
    | Forbidden
    | Raised(error: Error)

  /** Everything the route does: its answer, the token request it sent (if any), and the
      carrier records afterwards. */
  datatype Handled = Handled(reply: Reply, tokenRequest: Option<EncodedUrl>, carriers: map<int, Carrier>)

  /** How the carrier guard is written: on the id read from the state (as the source has
      it) or on the record that id designates (as intended). */
  datatype Guard = OnId | OnRecord

  const LoginRedirect := Redirect(EncodedUrl("/web/login", []), 303)

  /** The session has a logged-in user: `request.session.uid` is set and non-zero. */
  predicate SessionActive(uid: Option<int>) {
    uid.Some? && uid.value != 0
  }

  /** `hmac.compare_digest(a, b)` on a decoded JSON value and a text: both must be text,
      and text comparison only accepts ASCII. */
  function CompareDigest(a: Json.Value, b: string): (r: Result<bool>)
    ensures r.Ok? <==> a.JStr? && IsAscii(a.s) && IsAscii(b)
    ensures r.Ok? ==> (r.value <==> a.s == b)
    ensures r.Err? ==> r.error.TypeError?
  {
    if !a.JStr? then Err(TypeError("unsupported operand types(s) or combination of types"))
    else if !IsAscii(a.s) || !IsAscii(b) then Err(TypeError("comparing strings with non-ASCII characters is not supported"))
    else Ok(a.s == b)
  }

  /** `_compute_delivery_carrier_url`: the carrier form in the web client; `url_encode`
      keeps the insertion order and drops the action when it is not installed. */
  function CarrierUrl(carrierId: Json.Value, actionId: Option<int>, repr: Json.Value -> string): (u: EncodedUrl)
    ensures u.prefix == "/web#"
    ensures |u.params| >= 3 && Keys(u.params)[..3] == ["id", "model", "view_type"]
    ensures Lookup(u.params, "id") == Some(Json.PyStr(carrierId, repr))
    ensures Lookup(u.params, "model") == Some("delivery.carrier") && Lookup(u.params, "view_type") == Some("form")
    ensures Lookup(u.params, "action") == (if actionId.Some? then Some(Decimal.FromInt(actionId.value)) else None)
  {
    var fixed := [("id", Json.PyStr(carrierId, repr)), ("model", "delivery.carrier"), ("view_type", "form")];
    var ps := fixed + (if actionId.Some? then [("action", Decimal.FromInt(actionId.value))] else []);
    assert |ps[0].0| == 2 && |ps[1].0| == 5 && |ps[2].0| == 9;
    assert ps[..3] == fixed;
    LookupFirst(ps, 0); LookupFirst(ps, 1); LookupFirst(ps, 2);
    assert Lookup(ps, "action") == (if actionId.Some? then Some(Decimal.FromInt(actionId.value)) else None) by {
      if actionId.Some? {
        LookupFirst(ps, 3);
      } else {
        assert ps[1..][1..][1..] == [];
        assert Lookup(ps[1..][1..], "action") == Lookup(ps[1..][1..][1..], "action");
        assert Lookup(ps[1..], "action") == Lookup(ps[1..][1..], "action");
      }
    }
    assert Keys(ps)[..3] == ["id", "model", "view_type"];
    EncodedUrl("/web#", ps)
  }

  /** The route's inputs that come from outside the request: framework services, the keys,
      the form action's id, the provider's token reply. */
  datatype Context = Context(env: Env, cfg: AccessConfig, actionId: Option<int>, tokenReply: EncodedUrl -> TokenReply)

  /** The verdict of the route's checks, before any token request. */
  datatype Verdict =
    | Login
    | Refuse
    | Fail(error: Error)
    | Admit(code: string, carrierId: Json.Value, n: int)

  /** The decoded state of a callback, if it carries one that `json.loads` accepts. */
  function DecodedState(ctx: Context, query: map<string, string>): Option<Json.Value> {
    if "state" in query then ctx.env.loads(query["state"]) else None
  }

  /** The checks of `jd_delivery_return_authorization` in source order: session and query
      shape (login redirect), state members (propagated errors), signature (403), carrier
      id conversion (propagated error) and the carrier guard (403). */
  function Check(ctx: Context, carriers: map<int, Carrier>, query: map<string, string>, uid: Option<int>,
                 guard: Guard): (v: Verdict)
    ensures v.Login? <==> query == map[] || !SessionActive(uid) || "code" !in query || DecodedState(ctx, query).None?
    ensures v.Admit? ==>
      && v.code == query["code"]
      && var state := DecodedState(ctx, query).value;
         && Json.Index(state, "delivery_carrier_id") == Ok(v.carrierId)
         && Json.Index(state, "signature") == Ok(Json.JStr(StateSignature(ctx.env, v.carrierId)))
         && Json.PyInt(v.carrierId) == Ok(v.n)
         && (guard == OnRecord ==> v.n in carriers)
         && (guard == OnId ==> Json.Truthy(v.carrierId))
    ensures !v.Login? ==>
      var state := DecodedState(ctx, query).value;
      && (Json.Index(state, "delivery_carrier_id").Err? ==> v == Fail(Json.Index(state, "delivery_carrier_id").error))
      && (Json.Index(state, "delivery_carrier_id").Ok? && Json.Index(state, "signature").Err? ==>
            v == Fail(Json.Index(state, "signature").error))
      && (Json.Index(state, "delivery_carrier_id").Ok? && Json.Index(state, "signature").Ok? ==>
            var verdict := CompareDigest(Json.Index(state, "signature").value,
                                         StateSignature(ctx.env, Json.Index(state, "delivery_carrier_id").value));
            && (verdict.Err? ==> v == Fail(verdict.error))
            && (verdict == Ok(false) ==> v == Refuse))
  {
    if query == map[] || !SessionActive(uid) then Login
    else if "code" !in query || "state" !in query then Login
    else match ctx.env.loads(query["state"])
      case None => Login
      case Some(state) =>
        match Json.Index(state, "delivery_carrier_id")
        case Err(e) => Fail(e)
        case Ok(carrierId) =>
          match Json.Index(state, "signature")
          case Err(e) => Fail(e)
          case Ok(received) =>
            match CompareDigest(received, StateSignature(ctx.env, carrierId))
            case Err(e) => Fail(e)
            case Ok(false) => Refuse
            case Ok(true) =>
              match Json.PyInt(carrierId)
              case Err(e) => Fail(e)
              case Ok(n) =>
                var admitted := if guard == OnId then Json.Truthy(carrierId) else n in carriers;
                if admitted then Admit(query["code"], carrierId, n) else Refuse
  }

  /** The admitted branch: the code is exchanged in the environment of the record `n`
      names, or UAT for the empty recordset an absent id browses to; a complete reply is
      written to that record, which the browser is then sent to. */
  function Exchanged(ctx: Context, carriers: map<int, Carrier>, code: string, carrierId: Json.Value, n: int): (h: Handled)
    ensures h.tokenRequest.Some? <==> AccessInfo(ctx.cfg).Ok?
    ensures h.tokenRequest.None? ==> h == Handled(Raised(ValidationError(MissingKeys)), None, carriers)
    ensures h.tokenRequest.Some? ==>
      h.tokenRequest.value == TokenRequest(n in carriers && carriers[n].prodEnvironment,
                                           ctx.cfg.appKey.value, ctx.cfg.appSecret.value, code)
    ensures h.carriers.Keys == carriers.Keys
    ensures h.tokenRequest.None? || n !in carriers ==> h.carriers == carriers
    ensures forall k :: k in carriers && k != n ==> h.carriers[k] == carriers[k]
    ensures h.reply.Redirect? ==> h.tokenRequest.Some? && h.reply.status == 302 && h.reply.location.prefix == "/web#"
    ensures !h.reply.Forbidden?
  {
    // An absent record is an empty recordset, whose prod_environment is False.
    var prod := n in carriers && carriers[n].prodEnvironment;
    var x := Authorize(ctx.cfg, prod, code, ctx.tokenReply);
    if x.grant.Err? then Handled(Raised(x.grant.error), x.request, carriers)
    else Handled(Redirect(CarrierUrl(carrierId, ctx.actionId, ctx.env.repr), 302), x.request,
                 Written(carriers, n, x.grant.value))
  }

  /** `carrier.write(...)` on the browsed record: the record `n` takes the grant, and an
      empty recordset writes nothing. */
  function Written(carriers: map<int, Carrier>, n: int, g: Grant): (after: map<int, Carrier>)
    ensures after.Keys == carriers.Keys
    ensures n !in carriers ==> after == carriers
    ensures n in carriers ==> after[n] == WithGrant(carriers[n], g)
    ensures forall k :: k in carriers && k != n ==> after[k] == carriers[k]
  {
    if n in carriers then carriers[n := WithGrant(carriers[n], g)] else carriers
  }

  /** `jd_delivery_return_authorization(**query)` with the given guard: the token request
      is sent only for an admitted state, in the environment of the record the id names. */
  function Handle(ctx: Context, carriers: map<int, Carrier>, query: map<string, string>, uid: Option<int>,
                  guard: Guard): (h: Handled)
    ensures var v := Check(ctx, carriers, query, uid, guard);
      && (v.Login? ==> h == Handled(LoginRedirect, None, carriers))
      && (v.Refuse? ==> h == Handled(Forbidden, None, carriers))
      && (v.Fail? ==> h == Handled(Raised(v.error), None, carriers))
      && (v.Admit? ==> h == Exchanged(ctx, carriers, v.code, v.carrierId, v.n))
  {
    match Check(ctx, carriers, query, uid, guard)
    case Login => Handled(LoginRedirect, None, carriers)
    case Refuse => Handled(Forbidden, None, carriers)
    case Fail(e) => Handled(Raised(e), None, carriers)
    case Admit(code, carrierId, n) => Exchanged(ctx, carriers, code, carrierId, n)
  }

  /** The route as intended: a session-less or malformed callback goes to the login page;
      a state whose signature does not match, or that names no existing carrier, is
      refused with 403; only then is the code exchanged, for the named carrier. */
  function HandleCallback(ctx: Context, carriers: map<int, Carrier>, query: map<string, string>, uid: Option<int>): (h: Handled)
    ensures query == map[] || !SessionActive(uid) || "code" !in query || DecodedState(ctx, query).None? ==>
      h == Handled(LoginRedirect, None, carriers)
    ensures h.tokenRequest.None? ==> h.carriers == carriers
    ensures h.reply.Forbidden? ==> h.tokenRequest.None? && h.carriers == carriers
    ensures h.tokenRequest.Some? ==>
      var v := Check(ctx, carriers, query, uid, OnRecord);
      && v.Admit? && v.n in carriers && AccessInfo(ctx.cfg).Ok?
      && h.tokenRequest.value == TokenRequest(carriers[v.n].prodEnvironment,
                                              ctx.cfg.appKey.value, ctx.cfg.appSecret.value, query["code"])
    ensures h.reply.Redirect? && h.reply.status == 302 ==> h.tokenRequest.Some? && h.reply.location.prefix == "/web#"
  {
    Handle(ctx, carriers, query, uid, OnRecord)
  }

  /** The route as written: the guard tests the id rather than the record, so only a falsy
      id is refused and an id naming no carrier still reaches the code exchange, in the
      UAT environment of the empty recordset, with nothing written. */
  function HandleCallbackAsWritten(ctx: Context, carriers: map<int, Carrier>, query: map<string, string>, uid: Option<int>): (h: Handled)
    ensures query == map[] || !SessionActive(uid) || "code" !in query || DecodedState(ctx, query).None? ==>
      h == Handled(LoginRedirect, None, carriers)
    ensures h.tokenRequest.None? ==> h.carriers == carriers
    ensures h.reply.Forbidden? ==> h.tokenRequest.None? && h.carriers == carriers
    ensures h.tokenRequest.Some? ==>
      var v := Check(ctx, carriers, query, uid, OnId);
      && v.Admit? && Json.Truthy(v.carrierId) && AccessInfo(ctx.cfg).Ok?
      && (v.n !in carriers ==>
            (h.carriers == carriers
             && h.tokenRequest.value == TokenRequest(false, ctx.cfg.appKey.value, ctx.cfg.appSecret.value, query["code"])))
  {
    Handle(ctx, carriers, query, uid, OnId)
  }

  // ---------------------------------------------------------------------------
  // Properties

  /** The state issued for carrier `n` is text that `json.loads` reads back as that state:
      an object with an integer and a text member, which `json.dumps` writes losslessly. */
  predicate StateReadsBack(env: Env, n: int) {
    var state := StateMetadata(n, env.hmac(OauthScope, Decimal.FromInt(n)));
    env.loads(env.dumps(state)) == Some(state)
  }

  /** The query the provider sends back after the user consents: the code it issued and
      the state it received, unchanged. */
  function ReturnQuery(action: UrlAction, code: string): map<string, string>
    requires Lookup(action.url.params, "state").Some?
  {
    map["code" := code, "state" := Lookup(action.url.params, "state").value]
  }

  /** Round trip: the state issued for carrier N passes the callback's signature check for
      N, the code is exchanged in N's environment, and a complete token reply is written to
      N alone before the browser is sent to N's form. */
  lemma IssuedStateVerifies(ctx: Context, carriers: map<int, Carrier>, n: int, baseUrl: string,
                            code: string, uid: Option<int>)
    requires StateReadsBack(ctx.env, n) && SessionActive(uid) && n in carriers
    requires ActionOauth(ctx.env, ctx.cfg, n, carriers[n].prodEnvironment, baseUrl).Ok?
    ensures var action := ActionOauth(ctx.env, ctx.cfg, n, carriers[n].prodEnvironment, baseUrl).value;
      var h := HandleCallback(ctx, carriers, ReturnQuery(action, code), uid);
      var req := TokenRequest(carriers[n].prodEnvironment, ctx.cfg.appKey.value, ctx.cfg.appSecret.value, code);
      && h.tokenRequest == Some(req)
      && !h.reply.Forbidden?
      && (CompleteReply(ctx.tokenReply(req)) ==>
            && h.reply == Redirect(CarrierUrl(Json.JInt(n), ctx.actionId, ctx.env.repr), 302)
            && h.carriers == carriers[n := WithGrant(carriers[n], ReadGrant(ctx.tokenReply(req)).value)])
  {
    var action := ActionOauth(ctx.env, ctx.cfg, n, carriers[n].prodEnvironment, baseUrl).value;
    var query := ReturnQuery(action, code);
    IssuedStateAdmitted(ctx, carriers, n, baseUrl, code, uid);
    assert HandleCallback(ctx, carriers, query, uid) == Exchanged(ctx, carriers, code, Json.JInt(n), n);
  }

  /** The callback's checks admit an issued state, for the carrier it was issued for. */
  lemma IssuedStateAdmitted(ctx: Context, carriers: map<int, Carrier>, n: int, baseUrl: string,
                            code: string, uid: Option<int>)
    requires StateReadsBack(ctx.env, n) && SessionActive(uid) && n in carriers
    requires ActionOauth(ctx.env, ctx.cfg, n, carriers[n].prodEnvironment, baseUrl).Ok?
    ensures var action := ActionOauth(ctx.env, ctx.cfg, n, carriers[n].prodEnvironment, baseUrl).value;
      Check(ctx, carriers, ReturnQuery(action, code), uid, OnRecord) == Admit(code, Json.JInt(n), n)
  {
    var action := ActionOauth(ctx.env, ctx.cfg, n, carriers[n].prodEnvironment, baseUrl).value;
    var sig := ctx.env.hmac(OauthScope, Decimal.FromInt(n));
    var state := StateMetadata(n, sig);
    var query := ReturnQuery(action, code);
    assert ctx.env.loads(query["state"]) == Some(state);
    StateMembers(n, sig);
    assert StateSignature(ctx.env, Json.JInt(n)) == sig;
  }

  /** The two members of an issued state read back as written. */
  lemma StateMembers(n: int, sig: string)
    ensures Json.Index(StateMetadata(n, sig), "delivery_carrier_id") == Ok(Json.JInt(n))
    ensures Json.Index(StateMetadata(n, sig), "signature") == Ok(Json.JStr(sig))
  {
    var ms := StateMetadata(n, sig).members;
    assert |ms[0].0| != |ms[1].0|;
    Json.GetAt(ms, 0);
    Json.GetAt(ms, 1);
  }

  /** A state whose text signature is not the one computed for its carrier id is refused
      with 403: no token request, no record changes, whichever guard is used. The state is
      any decoded object, with other, reordered or repeated members; the members read are
      the last occurrences, as `json.loads` keeps them. */
  lemma TamperedStateForbidden(ctx: Context, carriers: map<int, Carrier>, query: map<string, string>,
                               uid: Option<int>, guard: Guard, members: seq<(string, Json.Value)>,
                               carrierId: Json.Value, received: string)
    requires query != map[] && SessionActive(uid) && "code" in query && "state" in query
    requires ctx.env.loads(query["state"]) == Some(Json.JObj(members))
    requires Json.Get(members, "delivery_carrier_id") == Some(carrierId)
    requires Json.Get(members, "signature") == Some(Json.JStr(received))
    requires IsAscii(received) && received != StateSignature(ctx.env, carrierId)
    ensures Handle(ctx, carriers, query, uid, guard) == Handled(Forbidden, None, carriers)
  {
  }

  /** A decoded state without a carrier id is not turned into a redirect: the KeyError
      propagates, and nothing is sent or written. */
  lemma MissingCarrierIdPropagates(ctx: Context, carriers: map<int, Carrier>, query: map<string, string>,
                                   uid: Option<int>, guard: Guard, members: seq<(string, Json.Value)>)
    requires query != map[] && SessionActive(uid) && "code" in query && "state" in query
    requires ctx.env.loads(query["state"]) == Some(Json.JObj(members))
    requires forall i :: 0 <= i < |members| ==> members[i].0 != "delivery_carrier_id"
    ensures Handle(ctx, carriers, query, uid, guard) == Handled(Raised(KeyError("delivery_carrier_id")), None, carriers)
  {
  }

  /** A decoded state that names a carrier but carries no signature is not turned into a
      403: the KeyError of the signature lookup propagates, and nothing is sent or written. */
  lemma MissingSignaturePropagates(ctx: Context, carriers: map<int, Carrier>, query: map<string, string>,
                                   uid: Option<int>, guard: Guard, members: seq<(string, Json.Value)>)
    requires query != map[] && SessionActive(uid) && "code" in query && "state" in query
    requires ctx.env.loads(query["state"]) == Some(Json.JObj(members))
    requires Json.Get(members, "delivery_carrier_id").Some?
    requires forall i :: 0 <= i < |members| ==> members[i].0 != "signature"
    ensures Handle(ctx, carriers, query, uid, guard) == Handled(Raised(KeyError("signature")), None, carriers)
  {
  }

  /** A signature that is not ASCII text cannot be compared: the TypeError of
      `hmac.compare_digest` propagates, not a 403, and nothing is sent or written. */
  lemma UncomparableSignaturePropagates(ctx: Context, carriers: map<int, Carrier>, query: map<string, string>,
                                        uid: Option<int>, guard: Guard, members: seq<(string, Json.Value)>,
                                        carrierId: Json.Value, received: Json.Value)
    requires query != map[] && SessionActive(uid) && "code" in query && "state" in query
    requires ctx.env.loads(query["state"]) == Some(Json.JObj(members))
    requires Json.Get(members, "delivery_carrier_id") == Some(carrierId)
    requires Json.Get(members, "signature") == Some(received)
    requires !received.JStr? || !IsAscii(received.s)
    ensures var h := Handle(ctx, carriers, query, uid, guard);
      && h.reply.Raised? && h.reply.error.TypeError?
      && h.tokenRequest.None? && h.carriers == carriers
  {
    assert CompareDigest(received, StateSignature(ctx.env, carrierId)).Err?;
    assert Check(ctx, carriers, query, uid, guard).Fail?;
  }

  /** The state issued for carrier `n` also passes the checks as written, whose guard tests
      only the id: it is admitted for any non-zero id, and a zero id is refused. */
  lemma IssuedStateAdmittedAsWritten(ctx: Context, carriers: map<int, Carrier>, n: int, prod: bool,
                                     baseUrl: string, code: string, uid: Option<int>)
    requires StateReadsBack(ctx.env, n) && SessionActive(uid)
    requires ActionOauth(ctx.env, ctx.cfg, n, prod, baseUrl).Ok?
    ensures var action := ActionOauth(ctx.env, ctx.cfg, n, prod, baseUrl).value;
      Check(ctx, carriers, ReturnQuery(action, code), uid, OnId) == if n != 0 then Admit(code, Json.JInt(n), n) else Refuse
  {
    var action := ActionOauth(ctx.env, ctx.cfg, n, prod, baseUrl).value;
    var sig := ctx.env.hmac(OauthScope, Decimal.FromInt(n));
    var state := StateMetadata(n, sig);
    var query := ReturnQuery(action, code);
    assert ctx.env.loads(query["state"]) == Some(state);
    StateMembers(n, sig);
    assert StateSignature(ctx.env, Json.JInt(n)) == sig;
  }

  /** Round trip through the route as written: for an existing carrier with a non-zero id,
      the issued state leads to the token request in that carrier's environment, and a
      complete reply is written to that carrier alone before the browser is sent to its form. */
  lemma IssuedStateVerifiesAsWritten(ctx: Context, carriers: map<int, Carrier>, n: int, baseUrl: string,
                                     code: string, uid: Option<int>)
    requires StateReadsBack(ctx.env, n) && SessionActive(uid) && n in carriers
    requires ActionOauth(ctx.env, ctx.cfg, n, carriers[n].prodEnvironment, baseUrl).Ok?
    ensures var action := ActionOauth(ctx.env, ctx.cfg, n, carriers[n].prodEnvironment, baseUrl).value;
      var h := HandleCallbackAsWritten(ctx, carriers, ReturnQuery(action, code), uid);
      var req := TokenRequest(carriers[n].prodEnvironment, ctx.cfg.appKey.value, ctx.cfg.appSecret.value, code);
      && (n == 0 ==> h == Handled(Forbidden, None, carriers))
      && (n != 0 ==>
            && h.tokenRequest == Some(req)
            && !h.reply.Forbidden?
            && (CompleteReply(ctx.tokenReply(req)) ==>
                  && h.reply == Redirect(CarrierUrl(Json.JInt(n), ctx.actionId, ctx.env.repr), 302)
                  && h.carriers == carriers[n := WithGrant(carriers[n], ReadGrant(ctx.tokenReply(req)).value)]))
  {
    var action := ActionOauth(ctx.env, ctx.cfg, n, carriers[n].prodEnvironment, baseUrl).value;
    var query := ReturnQuery(action, code);
    IssuedStateAdmittedAsWritten(ctx, carriers, n, carriers[n].prodEnvironment, baseUrl, code, uid);
    if n != 0 {
      assert HandleCallbackAsWritten(ctx, carriers, query, uid) == Exchanged(ctx, carriers, code, Json.JInt(n), n);
    }
  }

  /** Witness for the guard defect: a correctly signed state naming carrier 7, which does
      not exist, is refused by the intended route but, as written, reaches the token
      request, against the UAT server because the empty recordset is not in production. */
  lemma MissingCarrierReachesExchange(ctx: Context, carriers: map<int, Carrier>, code: string, uid: Option<int>)
    requires StateReadsBack(ctx.env, 7) && SessionActive(uid) && 7 !in carriers
    requires AccessInfo(ctx.cfg).Ok?
    ensures var sig := ctx.env.hmac(OauthScope, Decimal.FromInt(7));
      var query := map["code" := code, "state" := ctx.env.dumps(StateMetadata(7, sig))];
      && HandleCallbackAsWritten(ctx, carriers, query, uid).tokenRequest
           == Some(TokenRequest(false, ctx.cfg.appKey.value, ctx.cfg.appSecret.value, code))
      && HandleCallback(ctx, carriers, query, uid) == Handled(Forbidden, None, carriers)
  {
    var sig := ctx.env.hmac(OauthScope, Decimal.FromInt(7));
    var query := map["code" := code, "state" := ctx.env.dumps(StateMetadata(7, sig))];
    assert ctx.env.loads(query["state"]) == Some(StateMetadata(7, sig));
    StateMembers(7, sig);
    assert StateSignature(ctx.env, Json.JInt(7)) == sig;
  }
}

=== FILE: datetime.dfy ===
/** Naive datetimes in the proleptic Gregorian calendar (Python's `datetime`), their
    `%Y-%m-%d %H:%M:%S` text form, and the whole-hour shifts used to move provider
    timestamps (China Standard Time, UTC+8) to the UTC the carrier record stores. */
module DateTime {
  import opened Base
  import Decimal

  datatype DateTime = DateTime(year: int, month: int, day: int, hour: int, minute: int, second: int)

  predicate IsLeapYear(y: int) {
    y % 4 == 0 && (y % 100 != 0 || y % 400 == 0)
  }

  function DaysInMonth(y: int, m: int): (n: int)
    requires 1 <= m <= 12
    ensures 28 <= n <= 31
  {
    if m == 2 then (if IsLeapYear(y) then 29 else 28)
    else if m == 4 || m == 6 || m == 9 || m == 11 then 30
    else 31
  }

  function DaysInYear(y: int): int {
    if IsLeapYear(y) then 366 else 365
  }

  /** The range Python's datetime accepts (MINYEAR 1 to MAXYEAR 9999). */
  predicate Valid(d: DateTime) {
    && 1 <= d.year <= 9999
    && 1 <= d.month <= 12
    && 1 <= d.day <= DaysInMonth(d.year, d.month)
    && 0 <= d.hour < 24 && 0 <= d.minute < 60 && 0 <= d.second < 60
  }

  function DaysBeforeYear(y: int): nat
    requires y >= 1
    decreases y
  {
    if y == 1 then 0 else DaysBeforeYear(y - 1) + DaysInYear(y - 1)
  }

  function DaysBeforeMonth(y: int, m: int): nat
    requires 1 <= m <= 12
    decreases m
  {
    if m == 1 then 0 else DaysBeforeMonth(y, m - 1) + DaysInMonth(y, m - 1)
  }

  /** `date.toordinal()`: day 1 is 0001-01-01. */
  function Ordinal(d: DateTime): int
    requires Valid(d)
  {
    DaysBeforeYear(d.year) + DaysBeforeMonth(d.year, d.month) + d.day
  }

  /** Seconds elapsed since 0001-01-01 00:00:00, the reference against which the shifts are specified. */
  function Seconds(d: DateTime): int
    requires Valid(d)
  {
    (Ordinal(d) - 1) * 86400 + d.hour * 3600 + d.minute * 60 + d.second
  }

  lemma MonthsMakeYear(y: int)
    ensures DaysBeforeMonth(y, 12) + 31 == DaysInYear(y)
  {
    assert DaysBeforeMonth(y, 2) == 31;
    assert DaysBeforeMonth(y, 3) == 31 + DaysInMonth(y, 2);
    assert DaysBeforeMonth(y, 6) == DaysBeforeMonth(y, 3) + 92;
    assert DaysBeforeMonth(y, 9) == DaysBeforeMonth(y, 6) + 92;
    assert DaysBeforeMonth(y, 12) == DaysBeforeMonth(y, 9) + 91;
  }

  /** The calendar day before `d`, at the same time of day. */
  function PrevDay(d: DateTime): (p: DateTime)
    requires Valid(d) && Ordinal(d) > 1
    ensures Valid(p) && Ordinal(p) == Ordinal(d) - 1
    ensures p.hour == d.hour && p.minute == d.minute && p.second == d.second
  {
    if d.day > 1 then d.(day := d.day - 1)
    else if d.month > 1 then
      MonthEnd(d);
      d.(month := d.month - 1, day := DaysInMonth(d.year, d.month - 1))
    else
      YearEnd(d);
      d.(year := d.year - 1, month := 12, day := 31)
  }

  /** The last day of the previous month is the day before the first of a month. */
  lemma MonthEnd(d: DateTime)
    requires Valid(d) && d.month > 1 && d.day == 1
    ensures Valid(d.(month := d.month - 1, day := DaysInMonth(d.year, d.month - 1)))
    ensures Ordinal(d.(month := d.month - 1, day := DaysInMonth(d.year, d.month - 1))) == Ordinal(d) - 1
  {
    assert DaysBeforeMonth(d.year, d.month) == DaysBeforeMonth(d.year, d.month - 1) + DaysInMonth(d.year, d.month - 1);
  }

  /** New Year's Eve of the previous year is the day before 1 January. */
  lemma YearEnd(d: DateTime)
    requires Valid(d) && Ordinal(d) > 1 && d.month == 1 && d.day == 1
    ensures d.year > 1 && Valid(d.(year := d.year - 1, month := 12, day := 31))
    ensures Ordinal(d.(year := d.year - 1, month := 12, day := 31)) == Ordinal(d) - 1
  {
    assert Ordinal(d) == DaysBeforeYear(d.year) + 1;
    assert DaysBeforeYear(d.year) == DaysBeforeYear(d.year - 1) + DaysInYear(d.year - 1);
    MonthsMakeYear(d.year - 1);
  }

  /** The calendar day after `d`, at the same time of day. */
  function NextDay(d: DateTime): (n: DateTime)
    requires Valid(d) && !(d.year == 9999 && d.month == 12 && d.day == 31)
    ensures Valid(n) && Ordinal(n) == Ordinal(d) + 1
    ensures n.hour == d.hour && n.minute == d.minute && n.second == d.second
  {
    if d.day < DaysInMonth(d.year, d.month) then d.(day := d.day + 1)
    else if d.month < 12 then
      MonthStart(d);
      d.(month := d.month + 1, day := 1)
    else
      YearStart(d);
      d.(year := d.year + 1, month := 1, day := 1)
  }

  /** The first of the next month is the day after the last day of a month. */
  lemma MonthStart(d: DateTime)
    requires Valid(d) && d.month < 12 && d.day == DaysInMonth(d.year, d.month)
    ensures Valid(d.(month := d.month + 1, day := 1))
    ensures Ordinal(d.(month := d.month + 1, day := 1)) == Ordinal(d) + 1
  {
    assert DaysBeforeMonth(d.year, d.month + 1) == DaysBeforeMonth(d.year, d.month) + DaysInMonth(d.year, d.month);
  }

  /** 1 January of the next year is the day after New Year's Eve. */
  lemma YearStart(d: DateTime)
    requires Valid(d) && d.month == 12 && d.day == 31 && d.year < 9999
    ensures Valid(d.(year := d.year + 1, month := 1, day := 1))
    ensures Ordinal(d.(year := d.year + 1, month := 1, day := 1)) == Ordinal(d) + 1
  {
    assert DaysBeforeYear(d.year + 1) == DaysBeforeYear(d.year) + DaysInYear(d.year);
    MonthsMakeYear(d.year);
  }

  /** `d - relativedelta(hours=n)` for a whole number of hours below a day; Python raises
      OverflowError when the result would fall before year 1. */
  function MinusHours(d: DateTime, n: int): (r: Result<DateTime>)
    requires Valid(d) && 0 <= n < 24
    ensures r.Ok? <==> Seconds(d) >= n * 3600
    ensures r.Ok? ==> Valid(r.value) && Seconds(r.value) == Seconds(d) - n * 3600
    ensures r.Err? ==> r.error.OverflowError?
  {
    if d.hour >= n then Ok(d.(hour := d.hour - n))
    else if Ordinal(d) == 1 then Err(OverflowError("date value out of range"))
    else
      var p := PrevDay(d);
      Ok(p.(hour := d.hour + 24 - n))
  }

  /** `d + relativedelta(hours=n)`; OverflowError past the end of year 9999. */
  function PlusHours(d: DateTime, n: int): (r: Result<DateTime>)
    requires Valid(d) && 0 <= n < 24
    ensures r.Ok? ==> Valid(r.value) && Seconds(r.value) == Seconds(d) + n * 3600
    ensures r.Err? ==> r.error.OverflowError?
  {
    if d.hour + n < 24 then Ok(d.(hour := d.hour + n))
    else if d.year == 9999 && d.month == 12 && d.day == 31 then Err(OverflowError("date value out of range"))
    else
      var x := NextDay(d);
      Ok(x.(hour := d.hour + n - 24))
  }

  lemma PrevNextDay(d: DateTime)
    requires Valid(d) && !(d.year == 9999 && d.month == 12 && d.day == 31)
    ensures Ordinal(NextDay(d)) > 1 && PrevDay(NextDay(d)) == d
  {
    var x := NextDay(d);
    if x.day == 1 && x.month == 1 {
      MonthsMakeYear(d.year);
    }
  }

  /** Shifting back by n hours undoes shifting forward by n hours, across day, month and year ends. */
  lemma MinusPlusHours(d: DateTime, n: int)
    requires Valid(d) && 0 <= n < 24
    requires PlusHours(d, n).Ok?
    ensures MinusHours(PlusHours(d, n).value, n) == Ok(d)
  {
    if d.hour + n >= 24 {
      var x := NextDay(d);
      var r := x.(hour := d.hour + n - 24);
      assert PlusHours(d, n) == Ok(r);
      PrevNextDay(d);
      PrevDayKeepsDate(x, r);
    } else {
      assert PlusHours(d, n) == Ok(d.(hour := d.hour + n));
    }
  }

  /** PrevDay moves only the date: changing the time of day beforehand changes nothing else. */
  lemma PrevDayKeepsDate(x: DateTime, r: DateTime)
    requires Valid(x) && Valid(r) && Ordinal(x) > 1
    requires r.year == x.year && r.month == x.month && r.day == x.day
    ensures Ordinal(r) > 1
    ensures PrevDay(r) == PrevDay(x).(hour := r.hour, minute := r.minute, second := r.second)
  {
  }

  // ---------------------------------------------------------------------------
  // Text form

  function Pad2(n: int): (s: string)
    requires 0 <= n < 100
    ensures |s| == 2 && Decimal.AllDigits(s)
  {
    [Decimal.DigitChar(n / 10), Decimal.DigitChar(n % 10)]
  }

  function Pad4(n: int): (s: string)
    requires 0 <= n < 10000
    ensures |s| == 4 && Decimal.AllDigits(s)
  {
    [Decimal.DigitChar(n / 1000), Decimal.DigitChar((n / 100) % 10),
     Decimal.DigitChar((n / 10) % 10), Decimal.DigitChar(n % 10)]
  }

  /** `strftime("%Y-%m-%d %H:%M:%S")` with a four-digit year. */
  function Format(d: DateTime): (s: string)
    requires Valid(d)
    ensures |s| == 19
  {
    Pad4(d.year) + "-" + Pad2(d.month) + "-" + Pad2(d.day) + " "
    + Pad2(d.hour) + ":" + Pad2(d.minute) + ":" + Pad2(d.second)
  }

  predicate DigitsAt(s: string, i: int, w: int)
    requires 0 <= i && i + w <= |s|
  {
    forall k :: i <= k < i + w ==> Decimal.IsDigit(s[k])
  }

  /** The value of the `w` decimal digits of `s` starting at `i`. */
  function Num(s: string, i: int, w: int): int
    requires 0 <= i && 0 < w && i + w <= |s| && DigitsAt(s, i, w)
    decreases w
  {
    var v := Decimal.DigitValue(s[i + w - 1]);
    if w == 1 then v else Num(s, i, w - 1) * 10 + v
  }

  /** The shape `YYYY-MM-DD HH:MM:SS`: digits and separators at fixed positions. */
  predicate WellShaped(s: string) {
    && |s| == 19
    && DigitsAt(s, 0, 4) && s[4] == '-' && DigitsAt(s, 5, 2) && s[7] == '-' && DigitsAt(s, 8, 2)
    && s[10] == ' ' && DigitsAt(s, 11, 2) && s[13] == ':' && DigitsAt(s, 14, 2) && s[16] == ':'
    && DigitsAt(s, 17, 2)
  }

  function Fields(s: string): (d: DateTime)
    requires WellShaped(s)
  {
    DateTime(Num(s, 0, 4), Num(s, 5, 2), Num(s, 8, 2), Num(s, 11, 2), Num(s, 14, 2), Num(s, 17, 2))
  }

  /** `fields.Datetime.from_string` on a provider timestamp: the zero-padded
      `YYYY-MM-DD HH:MM:SS` form denoting a real calendar instant; anything else is
      strptime's ValueError. */
  function Parse(s: string): (r: Result<DateTime>)
    ensures r.Ok? ==> Valid(r.value) && Format(r.value) == s
    ensures r.Err? ==> r.error.ValueError?
  {
    if WellShaped(s) && Valid(Fields(s)) then
      FormatFields(s);
      Ok(Fields(s))
    else Err(ValueError("time data does not match format '%Y-%m-%d %H:%M:%S'"))
  }

  lemma Num2Digits(s: string, i: int)
    requires 0 <= i && i + 2 <= |s| && DigitsAt(s, i, 2)
    ensures 0 <= Num(s, i, 2) < 100 && Pad2(Num(s, i, 2)) == s[i..i + 2]
  {
    var a, b := Decimal.DigitValue(s[i]), Decimal.DigitValue(s[i + 1]);
    assert Num(s, i, 2) == a * 10 + b;
  }

  /** The positional digits of a four-digit number. */
  lemma FourDigits(a: int, b: int, c: int, e: int)
    requires 0 <= a < 10 && 0 <= b < 10 && 0 <= c < 10 && 0 <= e < 10
    ensures var n := a * 1000 + b * 100 + c * 10 + e;
      0 <= n < 10000 && n / 1000 == a && (n / 100) % 10 == b && (n / 10) % 10 == c && n % 10 == e
  {
    var n := a * 1000 + b * 100 + c * 10 + e;
    assert n == (a * 10 + b) * 100 + (c * 10 + e);
    assert n / 100 == a * 10 + b;
    assert n == (a * 100 + b * 10 + c) * 10 + e;
    assert n / 10 == a * 100 + b * 10 + c;
  }

  lemma Num4Digits(s: string, i: int)
    requires 0 <= i && i + 4 <= |s| && DigitsAt(s, i, 4)
    ensures 0 <= Num(s, i, 4) < 10000 && Pad4(Num(s, i, 4)) == s[i..i + 4]
  {
    var a, b, c, e := Decimal.DigitValue(s[i]), Decimal.DigitValue(s[i + 1]),
                      Decimal.DigitValue(s[i + 2]), Decimal.DigitValue(s[i + 3]);
    assert Num(s, i, 1) == a;
    assert Num(s, i, 2) == a * 10 + b;
    assert Num(s, i, 3) == (a * 10 + b) * 10 + c;
    assert Num(s, i, 4) == a * 1000 + b * 100 + c * 10 + e;
    FourDigits(a, b, c, e);
  }

  lemma FormatFields(s: string)
    requires WellShaped(s) && Valid(Fields(s))
    ensures Format(Fields(s)) == s
  {
    Num4Digits(s, 0); Num2Digits(s, 5); Num2Digits(s, 8);
    Num2Digits(s, 11); Num2Digits(s, 14); Num2Digits(s, 17);
    FormatPieces(Fields(s));
    SameShape(Format(Fields(s)), s);
  }

  /** Two timestamps agreeing on every field and separator are the same text. */
  lemma SameShape(f: string, s: string)
    requires |f| == 19 && |s| == 19
    requires f[0..4] == s[0..4] && f[5..7] == s[5..7] && f[8..10] == s[8..10]
    requires f[11..13] == s[11..13] && f[14..16] == s[14..16] && f[17..19] == s[17..19]
    requires f[4] == s[4] && f[7] == s[7] && f[10] == s[10] && f[13] == s[13] && f[16] == s[16]
    ensures f == s
  {
    SameAt(f, s, 0, 4); SameAt(f, s, 5, 2); SameAt(f, s, 8, 2);
    SameAt(f, s, 11, 2); SameAt(f, s, 14, 2); SameAt(f, s, 17, 2);
    assert forall k :: 0 <= k < 19 ==> f[k] == s[k];
  }

  lemma SameAt(f: string, s: string, i: int, w: int)
    requires 0 <= i && 0 <= w && i + w <= |f| && i + w <= |s| && f[i..i + w] == s[i..i + w]
    ensures forall k :: i <= k < i + w ==> f[k] == s[k]
  {
    assert forall k :: i <= k < i + w ==> f[k] == f[i..i + w][k - i] && s[k] == s[i..i + w][k - i];
  }

  lemma NumPad2(s: string, i: int, n: int)
    requires 0 <= i && i + 2 <= |s| && 0 <= n < 100 && s[i..i + 2] == Pad2(n)
    ensures DigitsAt(s, i, 2) && Num(s, i, 2) == n
  {
    assert s[i] == Pad2(n)[0] && s[i + 1] == Pad2(n)[1];
  }

  lemma NumPad4(s: string, i: int, n: int)
    requires 0 <= i && i + 4 <= |s| && 0 <= n < 10000 && s[i..i + 4] == Pad4(n)
    ensures DigitsAt(s, i, 4) && Num(s, i, 4) == n
  {
    var p := Pad4(n);
    var a, b, c, e := n / 1000, (n / 100) % 10, (n / 10) % 10, n % 10;
    assert s[i] == p[0] && s[i + 1] == p[1] && s[i + 2] == p[2] && s[i + 3] == p[3];
    assert Decimal.DigitValue(s[i]) == a && Decimal.DigitValue(s[i + 1]) == b;
    assert Decimal.DigitValue(s[i + 2]) == c && Decimal.DigitValue(s[i + 3]) == e;
    assert Num(s, i, 1) == a;
    assert Num(s, i, 2) == a * 10 + b;
    assert Num(s, i, 3) == (a * 10 + b) * 10 + c;
    SplitFour(n);
  }

  /** A number below 10000 is rebuilt from its four decimal digits. */
  lemma SplitFour(n: int)
    requires 0 <= n < 10000
    ensures ((n / 1000 * 10 + (n / 100) % 10) * 10 + (n / 10) % 10) * 10 + n % 10 == n
  {
    assert n / 100 == n / 1000 * 10 + (n / 100) % 10;
    assert n / 10 == n / 100 * 10 + (n / 10) % 10;
  }

  lemma FormatPieces(d: DateTime)
    requires Valid(d)
    ensures var s := Format(d);
      && s[0..4] == Pad4(d.year) && s[4] == '-' && s[5..7] == Pad2(d.month) && s[7] == '-'
      && s[8..10] == Pad2(d.day) && s[10] == ' ' && s[11..13] == Pad2(d.hour) && s[13] == ':'
      && s[14..16] == Pad2(d.minute) && s[16] == ':' && s[17..19] == Pad2(d.second)
  {
  }

  /** Round trip: parsing the text form of a valid datetime gives it back. */
  lemma ParseFormat(d: DateTime)
    requires Valid(d)
    ensures Parse(Format(d)) == Ok(d)
  {
    var s := Format(d);
    FormatPieces(d);
    NumPad4(s, 0, d.year); NumPad2(s, 5, d.month); NumPad2(s, 8, d.day);
    NumPad2(s, 11, d.hour); NumPad2(s, 14, d.minute); NumPad2(s, 17, d.second);
    assert WellShaped(s);
    assert Fields(s) == d;
  }
}

=== FILE: decimal.dfy ===
/** Decimal text of integers: Python's `str(n)` for an int, the strict part of `int(s)`
    for a string, and the truncating `int(x / y)` that the request headers rely on. */
module Decimal {
  import opened Base

  predicate IsDigit(c: char) {
    '0' <= c <= '9'
  }

  function DigitChar(d: int): (c: char)
    requires 0 <= d < 10
    ensures IsDigit(c) && c as int - '0' as int == d
  {
    ('0' as int + d) as char
  }

  function DigitValue(c: char): (d: int)
    requires IsDigit(c)
    ensures 0 <= d < 10 && DigitChar(d) == c
  {
    c as int - '0' as int
  }

  /** Digits of a non-negative number, most significant first, without leading zeros. */
  function NatDigits(n: nat): (s: string)
    decreases n
  {
    if n < 10 then [DigitChar(n)] else NatDigits(n / 10) + [DigitChar(n % 10)]
  }

  /** Python `str(n)` for an int: an optional minus sign then the digits. */
  function FromInt(n: int): string {
    if n < 0 then "-" + NatDigits(-n) else NatDigits(n)
  }

  /** Value of a non-empty run of digits. */
  function DigitsValue(s: string): (n: nat)
    requires forall i :: 0 <= i < |s| ==> IsDigit(s[i])
    decreases |s|
  {
    if |s| == 0 then 0 else DigitsValue(s[..|s| - 1]) * 10 + DigitValue(s[|s| - 1])
  }

  predicate AllDigits(s: string) {
    forall i :: 0 <= i < |s| ==> IsDigit(s[i])
  }

  /** Python `int(s)` on the texts this model parses: an optional sign followed by ASCII
      digits. Any other text is None. Python also accepts surrounding whitespace,
      underscores between digits and non-ASCII decimal digits; those forms are None here. */
  function ParseInt(s: string): (r: Option<int>)
    ensures r.Some? ==> |s| > 0
  {
    if |s| > 0 && (s[0] == '-' || s[0] == '+') then
      var body := s[1..];
      if |body| > 0 && AllDigits(body) then
        Some(if s[0] == '-' then 0 - DigitsValue(body) as int else DigitsValue(body) as int)
      else None
    else if |s| > 0 && AllDigits(s) then Some(DigitsValue(s))
    else None
  }

  lemma {:induction false} NatDigitsShape(n: nat)
    ensures |NatDigits(n)| > 0 && AllDigits(NatDigits(n))
    ensures DigitsValue(NatDigits(n)) == n
    decreases n
  {
    if n >= 10 {
      NatDigitsShape(n / 10);
      var s := NatDigits(n);
      assert s[..|s| - 1] == NatDigits(n / 10);
    }
  }

  /** `int(str(n)) == n`: the decimal rendering of an integer parses back to it. */
  lemma ParseFromInt(n: int)
    ensures ParseInt(FromInt(n)) == Some(n)
  {
    if n < 0 {
      var d := NatDigits(-n);
      NatDigitsShape(-n);
      var s := "-" + d;
      assert s[0] == '-' && s[1..] == d;
      assert ParseInt(s) == Some(0 - DigitsValue(d) as int);
    } else {
      var d := NatDigits(n);
      NatDigitsShape(n);
      assert IsDigit(d[0]) && d[0] != '-' && d[0] != '+';
      assert ParseInt(d) == Some(DigitsValue(d) as int);
    }
  }

  /** `str` is injective on ints, so distinct carrier ids never share a signing message. */
  lemma FromIntInjective(a: int, b: int)
    requires FromInt(a) == FromInt(b)
    ensures a == b
  {
    ParseFromInt(a);
    ParseFromInt(b);
  }

  /** Python `int(x / y)` for ints: true division followed by truncation toward zero.
      Dafny's `/` is Euclidean, so negative quotients are corrected explicitly. */
  function TruncDiv(x: int, y: int): (q: int)
    requires y > 0
    ensures q * y <= x < q * y + y || q * y - y < x <= q * y
    ensures x >= 0 ==> 0 <= q * y <= x < q * y + y
    ensures x <= 0 ==> x <= q * y <= 0 && q * y - y < x
  {
    if x >= 0 then x / y else -((-x) / y)
  }
}

=== FILE: delivery_jd.dfy ===
/** The `jd` delivery type (delivery_jd/models/delivery_carrier_inherit.py): the
    configuration check, the production/UAT URLs, the OAuth authorize action and code
    exchange, and the rate, send, cancel and tracking-link carrier methods. */
module DeliveryJd {
  import opened Base
  import Json
  import Decimal
  import DateTime
  import Signer
  import JdApi
  import opened Shipping

  /** The app key and secret kept as system parameters (`get_param` yields None when unset). */
  datatype AccessConfig = AccessConfig(appKey: Option<string>, appSecret: Option<string>)

  /** The `jd` fields of one `delivery.carrier` record. */
  datatype Carrier = Carrier(
    prodEnvironment: bool,
    accessToken: Option<string>,
    accessExpire: Option<DateTime.DateTime>,
    refreshToken: Option<string>,
    refreshExpire: Option<DateTime.DateTime>,
    customerCode: Option<string>)

  const MissingKeys := "请在库存-配置-设置-物流对接-京东物流连接器里填写密钥"
  const DefaultPackageCode := "Delivery JD"

  /** `get_jd_access_info`: both values truthy, returned unchanged; otherwise a ValidationError. */
  function AccessInfo(cfg: AccessConfig): (r: Result<(string, string)>)
    ensures r.Ok? <==> TruthyText(cfg.appKey) && TruthyText(cfg.appSecret)
    ensures r.Ok? ==> r.value.0 == cfg.appKey.value && r.value.1 == cfg.appSecret.value
    ensures r.Err? ==> r.error == ValidationError(MissingKeys)
  {
    if TruthyText(cfg.appKey) && TruthyText(cfg.appSecret) then Ok((cfg.appKey.value, cfg.appSecret.value))
    else Err(ValidationError(MissingKeys))
  }

  // ---------------------------------------------------------------------------
  // Environments

  function OauthUrl(prod: bool): (u: string)
    ensures prod <==> u == "https://oauth.jdl.com"
  {
    if prod then "https://oauth.jdl.com" else "https://uat-oauth.jdl.com"
  }

  function ApiUrl(prod: bool): (u: string)
    ensures prod <==> u == JdApi.DefaultBaseUri
  {
    if prod then "https://api.jdl.com" else "https://uat-api.jdl.com"
  }

  /** The test environment is the production host name behind a `uat-` prefix, for both
      the OAuth server and the API, and the two environments never share a host. */
  lemma UatMirrorsProd()
    ensures OauthUrl(false) == "https://uat-" + OauthUrl(true)[8..]
    ensures ApiUrl(false) == "https://uat-" + ApiUrl(true)[8..]
    ensures OauthUrl(true) != ApiUrl(true) && OauthUrl(false) != ApiUrl(false)
  {
  }

  // ---------------------------------------------------------------------------
  // OAuth authorize action

  type AsciiText = s: string | IsAscii(s)

  /** The framework services the OAuth round trip relies on: Odoo's `hmac` tool keyed by
      the database secret (a hex digest, so ASCII), `json.dumps` and `json.loads`, Python
      `repr` for ids that are neither ints nor strings, and werkzeug's `url_join`. */
  datatype Env = Env(
    hmac: (string, string) -> AsciiText,
    dumps: Json.Value -> string,
    loads: string -> Option<Json.Value>,
    repr: Json.Value -> string,
    urlJoin: (string, string) -> string)

  const OauthScope := "jd_delivery_compute_oauth_signature"
  const ReturnRoute := "jd_delivery/return"

  /** The state signature over `str(carrier id)`; the authorize action and the callback
      both compute it through this one function. */
  function StateSignature(env: Env, carrierId: Json.Value): AsciiText {
    env.hmac(OauthScope, Json.PyStr(carrierId, env.repr))
  }

  function StateMetadata(carrierId: int, signature: string): Json.Value {
    Json.JObj([("delivery_carrier_id", Json.JInt(carrierId)), ("signature", Json.JStr(signature))])
  }

  /** An `ir.actions.act_url` action. */
  datatype UrlAction = UrlAction(url: EncodedUrl, target: string)

  /** `action_oauth_jd_delivery` on the carrier with id `carrierId`: the signature is
      computed first, then the keys are checked; the browser is sent to the authorize
      endpoint with the client id, the callback route and the signed state. */
  function ActionOauth(env: Env, cfg: AccessConfig, carrierId: int, prod: bool, baseUrl: string): (r: Result<UrlAction>)
    ensures r.Ok? <==> AccessInfo(cfg).Ok?
    ensures r.Err? ==> r.error == ValidationError(MissingKeys)
    ensures r.Ok? ==> r.value.target == "self" && r.value.url.prefix == OauthUrl(prod) + "/oauth/authorize?"
    ensures r.Ok? ==> Keys(r.value.url.params) == ["response_type", "client_id", "redirect_uri", "state"]
    ensures r.Ok? ==>
      && Lookup(r.value.url.params, "response_type") == Some("code")
      && Lookup(r.value.url.params, "client_id") == Some(cfg.appKey.value)
      && Lookup(r.value.url.params, "redirect_uri") == Some(env.urlJoin(baseUrl, ReturnRoute))
      && Lookup(r.value.url.params, "state")
           == Some(env.dumps(StateMetadata(carrierId, env.hmac(OauthScope, Decimal.FromInt(carrierId)))))
  {
    var metadata := StateMetadata(carrierId, StateSignature(env, Json.JInt(carrierId)));
    var info :- AccessInfo(cfg);
    var ps := [("response_type", "code"), ("client_id", info.0),
               ("redirect_uri", env.urlJoin(baseUrl, ReturnRoute)), ("state", env.dumps(metadata))];
    assert |ps[0].0| == 13 && |ps[1].0| == 9 && |ps[2].0| == 12 && |ps[3].0| == 5;
    LookupFirst(ps, 0); LookupFirst(ps, 1); LookupFirst(ps, 2); LookupFirst(ps, 3);
    assert Keys(ps) == ["response_type", "client_id", "redirect_uri", "state"];
    Ok(UrlAction(EncodedUrl(OauthUrl(prod) + "/oauth/authorize?", ps), "self"))
  }

  // ---------------------------------------------------------------------------
  // Code exchange

  /** The query of the token request: `GET <oauth>/oauth/token?code=&client_secret=&client_id=`. */
  function TokenRequest(prod: bool, key: string, secret: string, code: string): EncodedUrl {
    EncodedUrl(OauthUrl(prod) + "/oauth/token?", [("code", code), ("client_secret", secret), ("client_id", key)])
  }

  /** The provider's token reply; the provider sends every member as a string. */
  type TokenReply = map<string, string>

  datatype Grant = Grant(accessToken: string, accessExpire: DateTime.DateTime,
                         refreshToken: string, refreshExpire: DateTime.DateTime)

  /** `t` is the instant exactly eight hours before the provider's Beijing-time text `s`. */
  predicate ShiftedToUtc(s: string, t: DateTime.DateTime) {
    DateTime.Parse(s).Ok? && DateTime.Valid(t)
    && DateTime.Seconds(t) == DateTime.Seconds(DateTime.Parse(s).value) - 8 * 3600
  }

  /** The provider text has a UTC counterpart within year 1..9999. */
  predicate Convertible(s: string) {
    DateTime.Parse(s).Ok? && DateTime.Seconds(DateTime.Parse(s).value) >= 8 * 3600
  }

  /** `fields.Datetime.from_string(ds) - relativedelta(hours=8)`. An empty string is
      converted to None, and subtracting from None is a TypeError. */
  function ToUtc(ds: string): (r: Result<DateTime.DateTime>)
    ensures r.Ok? <==> Convertible(ds)
    ensures r.Ok? ==> ShiftedToUtc(ds, r.value)
    ensures ds == "" ==> r.Err? && r.error.TypeError?
    ensures ds != "" && DateTime.Parse(ds).Err? ==> r == Err(DateTime.Parse(ds).error)
    ensures ds != "" && DateTime.Parse(ds).Ok? && !Convertible(ds) ==> r.Err? && r.error.OverflowError?
  {
    if ds == "" then Err(TypeError("unsupported operand type(s) for -: 'NoneType' and 'relativedelta'"))
    else
      var d :- DateTime.Parse(ds);
      DateTime.MinusHours(d, 8)
  }

  /** The reply holds the four members and both expiries convert. */
  predicate CompleteReply(d: TokenReply) {
    && "accessToken" in d && "accessExpire" in d && "refreshToken" in d && "refreshExpire" in d
    && Convertible(d["accessExpire"]) && Convertible(d["refreshExpire"])
  }

  /** The tokens are the provider's verbatim; each expiry is its provider text less eight hours. */
  predicate GrantOf(d: TokenReply, g: Grant) {
    && "accessToken" in d && "accessExpire" in d && "refreshToken" in d && "refreshExpire" in d
    && g.accessToken == d["accessToken"] && g.refreshToken == d["refreshToken"]
    && ShiftedToUtc(d["accessExpire"], g.accessExpire) && ShiftedToUtc(d["refreshExpire"], g.refreshExpire)
  }

  /** The dict passed to `write`, built member by member in source order: a missing member is
      a KeyError, an unconvertible expiry the conversion's error, whichever comes first. */
  function ReadGrant(d: TokenReply): (r: Result<Grant>)
    ensures r.Ok? <==> CompleteReply(d)
    ensures r.Ok? ==> GrantOf(d, r.value)
    ensures "accessToken" !in d ==> r == Err(KeyError("accessToken"))
    ensures "accessToken" in d && "accessExpire" !in d ==> r == Err(KeyError("accessExpire"))
    ensures "accessToken" in d && "accessExpire" in d && ToUtc(d["accessExpire"]).Err? ==>
      r == Err(ToUtc(d["accessExpire"]).error)
    ensures "accessToken" in d && "accessExpire" in d && ToUtc(d["accessExpire"]).Ok? && "refreshToken" !in d ==>
      r == Err(KeyError("refreshToken"))
    ensures "accessToken" in d && "accessExpire" in d && ToUtc(d["accessExpire"]).Ok? && "refreshToken" in d
            && "refreshExpire" !in d ==>
      r == Err(KeyError("refreshExpire"))
    ensures "accessToken" in d && "accessExpire" in d && ToUtc(d["accessExpire"]).Ok? && "refreshToken" in d
            && "refreshExpire" in d && ToUtc(d["refreshExpire"]).Err? ==>
      r == Err(ToUtc(d["refreshExpire"]).error)
    ensures r.Err? ==> r.error.KeyError? || r.error.TypeError? || r.error.ValueError? || r.error.OverflowError?
  {
    if "accessToken" !in d then Err(KeyError("accessToken"))
    else if "accessExpire" !in d then Err(KeyError("accessExpire"))
    else
      var accessExpire :- ToUtc(d["accessExpire"]);
      if "refreshToken" !in d then Err(KeyError("refreshToken"))
      else if "refreshExpire" !in d then Err(KeyError("refreshExpire"))
      else
        var refreshExpire :- ToUtc(d["refreshExpire"]);
        Ok(Grant(d["accessToken"], accessExpire, d["refreshToken"], refreshExpire))
  }

  /** The outcome of `authorization_jd_delivery`: the token request sent, if any, and the
      grant written or the error raised. */
  datatype Exchange = Exchange(request: Option<EncodedUrl>, grant: Result<Grant>)

  /** `authorization_jd_delivery(code)` on a carrier in the given environment; `reply` is
      the provider's answer to the token request. The keys are checked before anything is sent. */
  function Authorize(cfg: AccessConfig, prod: bool, code: string, reply: EncodedUrl -> TokenReply): (x: Exchange)
    ensures x.request.None? <==> AccessInfo(cfg).Err?
    ensures x.request.None? ==> x.grant == Err(ValidationError(MissingKeys))
    ensures x.request.Some? ==>
      && x.request.value == TokenRequest(prod, cfg.appKey.value, cfg.appSecret.value, code)
      && (x.grant.Ok? <==> CompleteReply(reply(x.request.value)))
      && (x.grant.Ok? ==> GrantOf(reply(x.request.value), x.grant.value))
  {
    match AccessInfo(cfg)
    case Err(e) => Exchange(None, Err(e))
    case Ok(info) =>
      var req := TokenRequest(prod, info.0, info.1, code);
      Exchange(Some(req), ReadGrant(reply(req)))
  }

  /** The `write` of a grant: the four token fields change, nothing else. */
  function WithGrant(c: Carrier, g: Grant): Carrier {
    c.(accessToken := Some(g.accessToken), accessExpire := Some(g.accessExpire),
       refreshToken := Some(g.refreshToken), refreshExpire := Some(g.refreshExpire))
  }

  /** A provider expiry at 08:00 Beijing time is stored as midnight UTC of the same day. */
  lemma ExpiryExample()
    ensures ToUtc("2024-06-01 08:00:00") == Ok(DateTime.DateTime(2024, 6, 1, 0, 0, 0))
  {
    JuneStamp();
  }

  /** An expiry in the small hours of 1 March in a leap year moves back to 29 February. */
  lemma ExpiryCrossesLeapDay()
    ensures ToUtc("2024-03-01 03:30:15") == Ok(DateTime.DateTime(2024, 2, 29, 19, 30, 15))
  {
    var d := DateTime.DateTime(2024, 3, 1, 3, 30, 15);
    MarchStamp();
    assert DateTime.Ordinal(d) > 1 by {
      assert DateTime.DaysBeforeYear(2024) == DateTime.DaysBeforeYear(2023) + DateTime.DaysInYear(2023);
    }
    assert DateTime.PrevDay(d) == DateTime.DateTime(2024, 2, 29, 3, 30, 15);
  }

  lemma JuneStamp()
    ensures DateTime.Parse("2024-06-01 08:00:00") == Ok(DateTime.DateTime(2024, 6, 1, 8, 0, 0))
  {
    DateTime.ParseFormat(DateTime.DateTime(2024, 6, 1, 8, 0, 0));
    JuneText();
  }

  lemma JuneText()
    ensures DateTime.Format(DateTime.DateTime(2024, 6, 1, 8, 0, 0)) == "2024-06-01 08:00:00"
  {
    assert DateTime.Pad4(2024) == "2024" && DateTime.Pad2(6) == "06" && DateTime.Pad2(1) == "01";
    assert DateTime.Pad2(8) == "08" && DateTime.Pad2(0) == "00";
  }

  lemma MarchStamp()
    ensures DateTime.Parse("2024-03-01 03:30:15") == Ok(DateTime.DateTime(2024, 3, 1, 3, 30, 15))
  {
    DateTime.ParseFormat(DateTime.DateTime(2024, 3, 1, 3, 30, 15));
    MarchText();
  }

  lemma MarchText()
    ensures DateTime.Format(DateTime.DateTime(2024, 3, 1, 3, 30, 15)) == "2024-03-01 03:30:15"
  {
    assert DateTime.Pad4(2024) == "2024" && DateTime.Pad2(3) == "03" && DateTime.Pad2(1) == "01";
    assert DateTime.Pad2(30) == "30" && DateTime.Pad2(15) == "15";
  }

  // ---------------------------------------------------------------------------
  // Provider calls

  /** The provider's parsed reply to a request made with a client, at an endpoint, with a payload. */
  type Provider = (JdApi.Client, JdApi.Endpoint, Json.Value) -> Response

  /** `JDApi(*get_jd_access_info(), jd_access_token, base_uri=get_jd_api_url())`. */
  function CarrierClient(c: Carrier, key: string, secret: string): JdApi.Client
    requires c.accessToken.Some?
  {
    JdApi.NewClient(key, secret, c.accessToken.value, ApiUrl(c.prodEnvironment))
  }

  /** An unset access token is the value False; joining it into the signing content fails
      before any request is sent. */
  const UnsetToken := TypeError("sequence item 2: expected str instance, bool found")

  function Invoke(provider: Provider, c: Carrier, key: string, secret: string, e: JdApi.Endpoint,
                  payload: Json.Value): Result<Response>
  {
    if c.accessToken.None? then Err(UnsetToken)
    else Ok(provider(CarrierClient(c, key, secret), e, payload))
  }

  /** The carrier's client signs with md5-salt, so every request it makes is built, goes to
      the carrier's environment and passes the provider's signature check. */
  lemma CarrierRequestsSigned(host: JdApi.Host, c: Carrier, key: string, secret: string,
                              e: JdApi.Endpoint, payload: Json.Value)
    requires DateTime.Valid(host.now) && c.accessToken.Some?
    ensures var r := JdApi.Call(host, CarrierClient(c, key, secret), e, payload);
      && r.Ok?
      && r.value.uri == ApiUrl(c.prodEnvironment) + JdApi.Path(e)
      && JdApi.ProviderAcceptsRequest(host.hashes, r.value, ApiUrl(c.prodEnvironment), secret)
  {
    assert Signer.Md5Salt in Signer.Supported;
  }

  // ---------------------------------------------------------------------------
  // Rate

  const NotShippedYet := "京东物流还未发货"
  const BadWaybill := "京东物流单号有误"

  function Rejected(message: string): RateResult {
    RateResult(false, Json.JInt(0), Some(message), None)
  }

  function RatePayload(waybill: string, c: Carrier): Json.Value {
    Json.JArr([Json.JObj([("waybillCode", Json.JStr(waybill)), ("orderOrigin", Json.JInt(1)),
                          ("customerCode", CharJson(c.customerCode))])])
  }

  /** `result['data']['sumMoney']`. */
  function SumMoney(resp: Response): Result<Json.Value> {
    match resp.data
    case None => Err(KeyError("data"))
    case Some(data) => Json.Index(data, "sumMoney")
  }

  /** The rate result for a fee query reply: a failure reports the provider's `msg`, a
      success reports the charged amount as the price. */
  function RateOutcome(resp: Response): (r: Result<RateResult>)
    ensures r.Ok? ==> (r.value.success <==> resp.success)
    ensures !resp.success ==> (r.Ok? <==> resp.msg.Some?)
    ensures !resp.success && r.Ok? ==> r.value == Rejected(resp.msg.value)
    ensures !resp.success && r.Err? ==> r.error == KeyError("msg")
    ensures resp.success ==> (r.Ok? <==> resp.data.Some? && Json.Index(resp.data.value, "sumMoney").Ok?)
    ensures resp.success && r.Ok? ==>
      r.value.price == Json.Index(resp.data.value, "sumMoney").value && r.value.errorMessage.None?
  {
    if !resp.success then
      match resp.msg
      case Some(m) => Ok(Rejected(m))
      case None => Err(KeyError("msg"))
    else
      var price :- SumMoney(resp);
      Ok(RateResult(true, price, None, None))
  }

  /** `jd_rate_shipment(order)`, given the order's pickings: rating is the actual fee of the
      first done picking's waybill, so an order is only rated once it has shipped. */
  function RateShipment(cfg: AccessConfig, c: Carrier, pickings: seq<Picking>, provider: Provider): (r: Result<RateResult>)
    ensures DonePickings(pickings) == [] ==> r == Ok(Rejected(NotShippedYet))
    ensures var ds := DonePickings(pickings);
      ds != [] && !TruthyText(ds[0].trackingRef) ==> r == Ok(Rejected(BadWaybill))
    ensures var ds := DonePickings(pickings);
      ds != [] && TruthyText(ds[0].trackingRef) && AccessInfo(cfg).Err? ==> r == Err(ValidationError(MissingKeys))
    ensures var ds := DonePickings(pickings);
      ds != [] && TruthyText(ds[0].trackingRef) && AccessInfo(cfg).Ok? && c.accessToken.None? ==> r == Err(UnsetToken)
    ensures var ds := DonePickings(pickings);
      ds != [] && TruthyText(ds[0].trackingRef) && AccessInfo(cfg).Ok? && c.accessToken.Some? ==>
        r == RateOutcome(provider(CarrierClient(c, cfg.appKey.value, cfg.appSecret.value), JdApi.OrdersActualfeeQuery,
                                  RatePayload(ds[0].trackingRef.value, c)))
    ensures r.Ok? && r.value.success ==> DonePickings(pickings) != [] && TruthyText(DonePickings(pickings)[0].trackingRef)
  {
    var ds := DonePickings(pickings);
    if ds == [] then Ok(Rejected(NotShippedYet))
    else if !TruthyText(ds[0].trackingRef) then Ok(Rejected(BadWaybill))
    else
      var info :- AccessInfo(cfg);
      var resp :- Invoke(provider, c, info.0, info.1, JdApi.OrdersActualfeeQuery, RatePayload(ds[0].trackingRef.value, c));
      RateOutcome(resp)
  }

  /** Pickings that are not done play no part in rating: rating only the done ones gives
      the same result. */
  lemma RateIgnoresUnshipped(cfg: AccessConfig, c: Carrier, pickings: seq<Picking>, provider: Provider)
    ensures RateShipment(cfg, c, DonePickings(pickings), provider) == RateShipment(cfg, c, pickings, provider)
  {
    DonePickingsIdempotent(pickings);
  }

  /** A successful rate is the fee the provider charged for the first shipped picking's
      waybill, queried with the carrier's own token. */
  lemma RateIsChargedFee(cfg: AccessConfig, c: Carrier, pickings: seq<Picking>, provider: Provider)
    requires RateShipment(cfg, c, pickings, provider).Ok? && RateShipment(cfg, c, pickings, provider).value.success
    ensures var ds := DonePickings(pickings);
      && ds != [] && ds[0].state == "done" && TruthyText(ds[0].trackingRef)
      && AccessInfo(cfg).Ok? && c.accessToken.Some?
      && var resp := provider(CarrierClient(c, cfg.appKey.value, cfg.appSecret.value), JdApi.OrdersActualfeeQuery,
                              RatePayload(ds[0].trackingRef.value, c));
         && resp.success && resp.data.Some?
         && Json.Index(resp.data.value, "sumMoney") == Ok(RateShipment(cfg, c, pickings, provider).value.price)
  {
  }

  // ---------------------------------------------------------------------------
  // Send

  const MissingOrder := "请核对源单据订单是否存在"

  /** `orders_create` payload for a picking of `order`; the sender is the current company
      (`env.company`), not the order's. */
  function SendPayload(p: Picking, order: SaleOrder, company: Contact, c: Carrier): (r: Result<Json.Value>)
    ensures r.Ok? <==> |order.lineProducts| > 0
    ensures r.Err? ==> r.error.IndexError?
    ensures r.Ok? ==> r.value == CreatePayload(p.origin, company, order.shippingPartner, order.lineProducts[0],
                                               Json.JInt(1), CharJson(c.customerCode))
    ensures r.Ok? ==>
      var o := PayloadObject(r.value);
      && o.Some?
      && Json.Get(o.value, "orderId") == Some(CharJson(p.origin))
      && Json.Get(o.value, "senderContact") == Some(ContactJson(company))
      && Json.Get(o.value, "receiverContact") == Some(ContactJson(order.shippingPartner))
      && Json.Get(o.value, "orderOrigin") == Some(Json.JInt(1))
      && Json.Get(o.value, "customerCode") == Some(CharJson(c.customerCode))
  {
    var product :- FirstProduct(order);
    CreatePayloadFields(p.origin, company, order.shippingPartner, product, Json.JInt(1), CharJson(c.customerCode));
    Ok(CreatePayload(p.origin, company, order.shippingPartner, product, Json.JInt(1), CharJson(c.customerCode)))
  }

  /** The shipment line of a successful create reply: `freightPre or 0` as the price and
      the waybill code as the tracking number. */
  function ShipmentOf(resp: Response): (r: Result<ShipmentLine>)
    ensures r.Ok? ==> resp.data.Some? && resp.data.value.JObj?
    ensures r.Ok? ==> Json.Get(resp.data.value.members, "waybillCode") == Some(r.value.trackingNumber)
    ensures r.Ok? ==> match Json.Get(resp.data.value.members, "freightPre")
                      case Some(v) => r.value.exactPrice == Json.Or(v, Json.JInt(0))
                      case None => r.value.exactPrice == Json.JInt(0)
    ensures resp.data.Some? && resp.data.value.JObj? ==>
      (r.Ok? <==> Json.Get(resp.data.value.members, "waybillCode").Some?)
  {
    match resp.data
    case None => Err(KeyError("data"))
    case Some(data) =>
      if !data.JObj? then Err(AttributeError("get"))
      else
        var exact := match Json.Get(data.members, "freightPre")
          case Some(v) => Json.Or(v, Json.JInt(0))
          case None => Json.JInt(0);
        match Json.Get(data.members, "waybillCode")
        case Some(w) => Ok(ShipmentLine(exact, w))
        case None => Err(KeyError("waybillCode"))
  }

  /** `jd_send_shipping(picking)`: the keys are checked when the client is built, the sale
      order is looked up by the picking's origin, then one create request is made. */
  function SendShipping(cfg: AccessConfig, c: Carrier, p: Picking, company: Contact,
                        findOrder: Option<string> -> Option<SaleOrder>, provider: Provider): (r: Result<seq<ShipmentLine>>)
    ensures AccessInfo(cfg).Err? ==> r == Err(ValidationError(MissingKeys))
    ensures AccessInfo(cfg).Ok? && findOrder(p.origin).None? ==> r == Err(ValidationError(MissingOrder))
    ensures r.Ok? ==> |r.value| == 1
    ensures AccessInfo(cfg).Ok? && findOrder(p.origin).Some? && SendPayload(p, findOrder(p.origin).value, company, c).Err? ==>
      r == Err(SendPayload(p, findOrder(p.origin).value, company, c).error)
    ensures AccessInfo(cfg).Ok? && findOrder(p.origin).Some? && c.accessToken.None?
            && SendPayload(p, findOrder(p.origin).value, company, c).Ok? ==>
      r == Err(UnsetToken)
    ensures AccessInfo(cfg).Ok? && findOrder(p.origin).Some? && c.accessToken.Some?
            && SendPayload(p, findOrder(p.origin).value, company, c).Ok? ==>
      var resp := provider(CarrierClient(c, cfg.appKey.value, cfg.appSecret.value), JdApi.OrdersCreate,
                           SendPayload(p, findOrder(p.origin).value, company, c).value);
      && (!resp.success ==> r == Err(RejectionError(resp.msg, "msg")))
      && (resp.success ==> (r.Ok? <==> ShipmentOf(resp).Ok?))
      && (resp.success && r.Ok? ==> r.value[0] == ShipmentOf(resp).value)
  {
    var info :- AccessInfo(cfg);
    match findOrder(p.origin)
    case None => Err(ValidationError(MissingOrder))
    case Some(order) =>
      var payload :- SendPayload(p, order, company, c);
      var resp :- Invoke(provider, c, info.0, info.1, JdApi.OrdersCreate, payload);
      if !resp.success then Err(RejectionError(resp.msg, "msg"))
      else
        var line :- ShipmentOf(resp);
        Ok([line])
  }

  /** A picking whose order cannot be found fails the same way whatever the provider
      would answer: no create request is involved. */
  lemma MissingOrderNoCall(cfg: AccessConfig, c: Carrier, p: Picking, company: Contact,
                           findOrder: Option<string> -> Option<SaleOrder>, provider1: Provider, provider2: Provider)
    requires findOrder(p.origin).None?
    ensures SendShipping(cfg, c, p, company, findOrder, provider1) == SendShipping(cfg, c, p, company, findOrder, provider2)
    ensures SendShipping(cfg, c, p, company, findOrder, provider1).Err?
  {
  }

  /** A shipment is reported only when JD accepted the create request for the picking's
      order: the keys are set, the order has a line, the token is set, and the reply is a
      success whose shipment line is the one returned. */
  lemma SentOnlyWhenAccepted(cfg: AccessConfig, c: Carrier, p: Picking, company: Contact,
                             findOrder: Option<string> -> Option<SaleOrder>, provider: Provider)
    ensures SendShipping(cfg, c, p, company, findOrder, provider).Ok? ==>
      AccessInfo(cfg).Ok? && findOrder(p.origin).Some? && c.accessToken.Some?
      && SendPayload(p, findOrder(p.origin).value, company, c).Ok?
    ensures SendShipping(cfg, c, p, company, findOrder, provider).Ok? ==>
      var resp := provider(CarrierClient(c, cfg.appKey.value, cfg.appSecret.value), JdApi.OrdersCreate,
                           SendPayload(p, findOrder(p.origin).value, company, c).value);
      && resp.success
      && ShipmentOf(resp).Ok?
      && SendShipping(cfg, c, p, company, findOrder, provider).value == [ShipmentOf(resp).value]
  {
  }

  // ---------------------------------------------------------------------------
  // Cancel

  /** `jd_cancel_shipment(pickings)`: one cancel request per picking, in order, stopping at
      the first failure, whose `subMsg` is raised. `sent` lists the payloads sent. */
  method CancelShipment(cfg: AccessConfig, c: Carrier, pickings: seq<Picking>, provider: Provider)
    returns (sent: seq<Json.Value>, outcome: Result<()>)
    ensures AccessInfo(cfg).Err? ==> sent == [] && outcome == Err(ValidationError(MissingKeys))
    ensures AccessInfo(cfg).Ok? && c.accessToken.None? && pickings != [] ==> sent == [] && outcome == Err(UnsetToken)
    ensures AccessInfo(cfg).Ok? && pickings == [] ==> sent == [] && outcome == Ok(())
    ensures |sent| <= |pickings|
    ensures forall i :: 0 <= i < |sent| ==> sent[i] == CancelPayload(pickings[i], Json.JInt(1), CharJson(c.customerCode))
    ensures AccessInfo(cfg).Ok? && c.accessToken.Some? ==>
      var client := CarrierClient(c, cfg.appKey.value, cfg.appSecret.value);
      && (outcome.Ok? <==> forall i :: 0 <= i < |pickings| ==>
            provider(client, JdApi.OrdersCancel, CancelPayload(pickings[i], Json.JInt(1), CharJson(c.customerCode))).success)
      && (outcome.Ok? ==> |sent| == |pickings|)
      && (outcome.Err? ==>
           && |sent| > 0
           && (forall i :: 0 <= i < |sent| - 1 ==> provider(client, JdApi.OrdersCancel, sent[i]).success)
           && !provider(client, JdApi.OrdersCancel, sent[|sent| - 1]).success
           && outcome.error == RejectionError(provider(client, JdApi.OrdersCancel, sent[|sent| - 1]).subMsg, "subMsg"))
  {
    var info := AccessInfo(cfg);
    if info.Err? {
      return [], Err(info.error);
    }
    if pickings == [] {
      return [], Ok(());
    }
    if c.accessToken.None? {
      return [], Err(UnsetToken);
    }
    var client := CarrierClient(c, info.value.0, info.value.1);
    sent, outcome := CancelEach(pickings, Json.JInt(1), CharJson(c.customerCode), provider, client, JdApi.OrdersCancel);
  }
}

=== FILE: hex.dfy ===
/** Python's `bytes.hex()`: two lowercase hexadecimal digits per byte. */
module Hex {
  import opened Base

  predicate IsHexDigit(c: char) {
    '0' <= c <= '9' || 'a' <= c <= 'f'
  }

  predicate IsLowerHex(s: string) {
    forall i :: 0 <= i < |s| ==> IsHexDigit(s[i])
  }

  function HexDigit(v: int): (c: char)
    requires 0 <= v < 16
    ensures IsHexDigit(c)
  {
    if v < 10 then ('0' as int + v) as char else ('a' as int + v - 10) as char
  }

  function NibbleValue(c: char): (v: int)
    requires IsHexDigit(c)
    ensures 0 <= v < 16 && HexDigit(v) == c
  {
    if c <= '9' then c as int - '0' as int else c as int - 'a' as int + 10
  }

  function EncodeByte(b: byte): string {
    [HexDigit(b / 16), HexDigit(b % 16)]
  }

  function Encode(bs: Bytes): (s: string)
    ensures |s| == 2 * |bs|
    ensures IsLowerHex(s)
    decreases |bs|
  {
    if |bs| == 0 then "" else EncodeByte(bs[0]) + Encode(bs[1..])
  }

  /** `bytes.fromhex` for lowercase digit pairs; None on odd length or a stray character. */
  function Decode(s: string): Option<Bytes>
    decreases |s|
  {
    if |s| == 0 then Some([])
    else if |s| >= 2 && IsHexDigit(s[0]) && IsHexDigit(s[1]) then
      match Decode(s[2..])
      case None => None
      case Some(rest) => Some([NibbleValue(s[0]) * 16 + NibbleValue(s[1])] + rest)
    else None
  }

  /** Round trip: the hex text of a digest decodes back to the digest. */
  lemma {:induction false} DecodeEncode(bs: Bytes)
    ensures Decode(Encode(bs)) == Some(bs)
    decreases |bs|
  {
    if |bs| > 0 {
      var s := Encode(bs);
      var rest := Encode(bs[1..]);
      assert s == EncodeByte(bs[0]) + rest;
      assert s[2..] == rest;
      assert NibbleValue(s[0]) == bs[0] / 16 && NibbleValue(s[1]) == bs[0] % 16;
      DecodeEncode(bs[1..]);
      HeadAndTail(bs);
    }
  }
}

=== FILE: hmac.dfy ===
/** HMAC as Python's `hmac.new(key, msg, digestmod).digest()` computes it (RFC 2104),
    over hash functions that are supplied from outside: the model never looks inside
    MD5 or SHA, it only relies on their digest lengths. */
module Hmac {
  import opened Base

  datatype HashName = MD5 | SHA1 | SHA256 | SHA512

  type Digest16 = s: Bytes | |s| == 16 witness seq(16, _ => 0)
  type Digest20 = s: Bytes | |s| == 20 witness seq(20, _ => 0)
  type Digest32 = s: Bytes | |s| == 32 witness seq(32, _ => 0)
  type Digest64 = s: Bytes | |s| == 64 witness seq(64, _ => 0)

  /** The hash functions `hashlib` provides; opaque, deterministic, fixed output length. */
  datatype Hashes = Hashes(
    md5: Bytes -> Digest16,
    sha1: Bytes -> Digest20,
    sha256: Bytes -> Digest32,
    sha512: Bytes -> Digest64)

  function DigestSize(h: HashName): nat {
    match h
    case MD5 => 16
    case SHA1 => 20
    case SHA256 => 32
    case SHA512 => 64
  }

  /** The hash's input block size B (`digest_cons().block_size`). */
  function BlockSize(h: HashName): nat {
    if h == SHA512 then 128 else 64
  }

  function Digest(hs: Hashes, h: HashName, m: Bytes): (d: Bytes)
    ensures |d| == DigestSize(h)
  {
    match h
    case MD5 => hs.md5(m)
    case SHA1 => hs.sha1(m)
    case SHA256 => hs.sha256(m)
    case SHA512 => hs.sha512(m)
  }

  /** Section 2 of RFC 2104: a key longer than B is replaced by its digest, then the key
      is right-padded with zero bytes to exactly B bytes. */
  function BlockKey(hs: Hashes, h: HashName, key: Bytes): (k: Bytes)
    ensures |k| == BlockSize(h)
    ensures |key| <= BlockSize(h) ==> k[..|key|] == key
    ensures |key| <= BlockSize(h) ==> forall i :: |key| <= i < |k| ==> k[i] == 0
  {
    var short := if |key| > BlockSize(h) then Digest(hs, h, key) else key;
    short + seq(BlockSize(h) - |short|, _ => 0)
  }

  function XorEach(k: Bytes, pad: byte): (r: Bytes)
    ensures |r| == |k|
  {
    seq(|k|, i requires 0 <= i < |k| => ((k[i] as bv8) ^ (pad as bv8)) as byte)
  }

  const InnerPad: byte := 0x36
  const OuterPad: byte := 0x5C

  /** H(K xor opad, H(K xor ipad, text)). */
  function Mac(hs: Hashes, h: HashName, key: Bytes, msg: Bytes): (mac: Bytes)
    ensures |mac| == DigestSize(h)
  {
    var k := BlockKey(hs, h, key);
    Digest(hs, h, XorEach(k, OuterPad) + Digest(hs, h, XorEach(k, InnerPad) + msg))
  }

  /** Two keys that agree once zero-padded to the block size authenticate identically:
      appending a zero byte to a short key does not change any MAC. */
  lemma ZeroPaddedKeyEquivalent(hs: Hashes, h: HashName, key: Bytes, msg: Bytes)
    requires |key| < BlockSize(h)
    ensures Mac(hs, h, key + [0], msg) == Mac(hs, h, key, msg)
  {
    var a, b := BlockKey(hs, h, key + [0]), BlockKey(hs, h, key);
    assert forall i :: 0 <= i < |a| ==> a[i] == b[i] by {
      forall i | 0 <= i < |a| ensures a[i] == b[i] {
        if i < |key| {
          assert a[i] == a[..|key| + 1][i] == (key + [0])[i];
        }
      }
    }
    assert a == b;
  }

  /** A key longer than the block is interchangeable with its own digest. */
  lemma LongKeyHashed(hs: Hashes, h: HashName, key: Bytes, msg: Bytes)
    requires |key| > BlockSize(h)
    ensures Mac(hs, h, key, msg) == Mac(hs, h, Digest(hs, h, key), msg)
  {
    assert BlockKey(hs, h, key) == BlockKey(hs, h, Digest(hs, h, key));
  }
}

=== FILE: jd_api.dfy ===
/** The JD Logistics open-platform client `JDApi` (delivery_jd/api/jd_api.py): the
    canonical signing string, the seven signed query parameters, the request headers and
    the three order endpoints. The HTTP round trip itself is not modelled; a call ends
    with the request it would send. */
module JdApi {
  import opened Base
  import Json
  import Signer
  import Hmac
  import Utf8
  import DateTime
  import Decimal

  const DefaultBaseUri := "https://api.jdl.com"
  const DefaultDomain := "ECAP"
  const DefaultAlgorithm := Signer.Md5Salt
  const ProtocolVersion := "2.0"

  datatype Client = Client(
    baseUri: string,
    appKey: string,
    appSecret: string,
    accessToken: string,
    domain: string,
    algorithm: string)

  /** `JDApi(app_key, app_secret, access_token, base_uri=..., domain=..., algorithm=...)`. */
  function NewClient(appKey: string, appSecret: string, accessToken: string,
                     baseUri: string := DefaultBaseUri, domain: string := DefaultDomain,
                     algorithm: string := DefaultAlgorithm): Client
  {
    Client(baseUri, appKey, appSecret, accessToken, domain, algorithm)
  }

  /** Everything outside the client that a request depends on: the hash primitives,
      `json.dumps`, the wall clock read by `datetime.now()` and `time.timezone`. */
  datatype Host = Host(
    hashes: Hmac.Hashes,
    dumps: Json.Value -> string,
    now: DateTime.DateTime,
    timezone: int)

  // ---------------------------------------------------------------------------
  // Signing content

  /** The signed fields in the order the provider concatenates them. */
  function SignedFields(accessToken: string, appKey: string, path: string, body: string,
                        timestamp: string, version: string): Params
  {
    [("access_token", accessToken), ("app_key", appKey), ("method", path),
     ("param_json", body), ("timestamp", timestamp), ("v", version)]
  }

  /** Each field's name immediately followed by its value. */
  function Flatten(fields: Params): string {
    if |fields| == 0 then "" else fields[0].0 + fields[0].1 + Flatten(fields[1..])
  }

  /** The provider's canonical content: the secret, the fields, the secret again. */
  function Canonical(secret: string, fields: Params): string {
    secret + Flatten(fields) + secret
  }

  lemma FlattenSignedFields(t: string, k: string, p: string, b: string, ts: string, v: string)
    ensures Flatten(SignedFields(t, k, p, b, ts, v))
      == "access_token" + t + "app_key" + k + "method" + p + "param_json" + b + "timestamp" + ts + "v" + v
  {
    var f := SignedFields(t, k, p, b, ts, v);
    assert Flatten(f[5..]) == "v" + v by { assert f[5..][1..] == []; }
    assert Flatten(f[4..]) == "timestamp" + ts + Flatten(f[5..]) by { assert f[4..][1..] == f[5..]; }
    assert Flatten(f[3..]) == "param_json" + b + Flatten(f[4..]) by { assert f[3..][1..] == f[4..]; }
    assert Flatten(f[2..]) == "method" + p + Flatten(f[3..]) by { assert f[2..][1..] == f[3..]; }
    assert Flatten(f[1..]) == "app_key" + k + Flatten(f[2..]) by { assert f[1..][1..] == f[2..]; }
  }

  /** The content `compute_params` joins, piece by piece as the source lists it. */
  function SigningContent(c: Client, path: string, body: string, timestamp: string): (s: string)
    ensures s == Canonical(c.appSecret, SignedFields(c.accessToken, c.appKey, path, body, timestamp, ProtocolVersion))
    ensures |s| >= 2 * |c.appSecret| && s[..|c.appSecret|] == c.appSecret
      && s[|s| - |c.appSecret|..] == c.appSecret
  {
    FlattenSignedFields(c.accessToken, c.appKey, path, body, timestamp, ProtocolVersion);
    var fields := "access_token" + c.accessToken + "app_key" + c.appKey + "method" + path
      + "param_json" + body + "timestamp" + timestamp + "v" + ProtocolVersion;
    c.appSecret + fields + c.appSecret
  }

  /** Strict lexicographic order on names. */
  predicate LexLess(a: string, b: string) {
    exists k :: 0 <= k <= |a| && k <= |b| && a[..k] == b[..k] &&
      ((k < |a| && k < |b| && a[k] < b[k]) || (k == |a| && k < |b|))
  }

  /** The signed names appear in ascending lexicographic order, the provider's canonical order. */
  lemma SignedNamesAscending(t: string, k: string, p: string, b: string, ts: string, v: string)
    ensures var f := SignedFields(t, k, p, b, ts, v);
      forall i :: 0 <= i < |f| - 1 ==> LexLess(f[i].0, f[i + 1].0)
  {
    assert LexLess("access_token", "app_key") by {
      assert "access_token"[..1] == "app_key"[..1];
    }
    assert LexLess("app_key", "method") by {
      assert "app_key"[..0] == "method"[..0];
    }
    assert LexLess("method", "param_json") by {
      assert "method"[..0] == "param_json"[..0];
    }
    assert LexLess("param_json", "timestamp") by {
      assert "param_json"[..0] == "timestamp"[..0];
    }
    assert LexLess("timestamp", "v") by {
      assert "timestamp"[..0] == "v"[..0];
    }
  }

  /** The bytes that get signed begin and end with the UTF-8 bytes of the secret. */
  lemma SignedBytesBracketedBySecret(c: Client, path: string, body: string, timestamp: string)
    ensures var bs := Utf8.Encode(SigningContent(c, path, body, timestamp));
      var sb := Utf8.Encode(c.appSecret);
      |bs| >= 2 * |sb| && bs[..|sb|] == sb && bs[|bs| - |sb|..] == sb
  {
    var s := SigningContent(c, path, body, timestamp);
    var n := |c.appSecret|;
    var middle := s[n..|s| - n];
    assert s == c.appSecret + middle + c.appSecret;
    Utf8.EncodeAppend(c.appSecret, middle);
    Utf8.EncodeAppend(c.appSecret + middle, c.appSecret);
  }

  // ---------------------------------------------------------------------------
  // Query parameters

  const QueryKeys: seq<string> := ["LOP-DN", "app_key", "access_token", "timestamp", "v", "sign", "algorithm"]

  /** What the provider recomputes from a received query: the canonical content over the
      query's own access_token, app_key, timestamp and v, with the request path as
      `method` and the request body as `param_json`. */
  function ProviderContent(q: Params, path: string, body: string, secret: string): Option<string> {
    match (Lookup(q, "access_token"), Lookup(q, "app_key"), Lookup(q, "timestamp"), Lookup(q, "v"))
    case (Some(t), Some(k), Some(ts), Some(v)) => Some(Canonical(secret, SignedFields(t, k, path, body, ts, v)))
    case _ => None
  }

  /** The provider's check of a signed query, for the secret registered under its app_key. */
  predicate ProviderAccepts(hs: Hmac.Hashes, q: Params, path: string, body: string, secret: string) {
    match (Lookup(q, "algorithm"), Lookup(q, "sign"), ProviderContent(q, path, body, secret))
    case (Some(alg), Some(sig), Some(content)) =>
      Signer.Sign(hs, alg, Utf8.Encode(content), Utf8.Encode(secret)) == Ok(sig)
    case _ => false
  }

  /** The seven query parameters, in the order `compute_params` builds its dict. */
  function Query(c: Client, timestamp: string, sign: string): (q: Params)
    ensures Keys(q) == QueryKeys
  {
    var q := [("LOP-DN", c.domain), ("app_key", c.appKey), ("access_token", c.accessToken),
              ("timestamp", timestamp), ("v", ProtocolVersion), ("sign", sign), ("algorithm", c.algorithm)];
    assert Keys(q) == QueryKeys by {
      var ks := Keys(q);
      assert forall i :: 0 <= i < |ks| ==> ks[i] == q[i].0 == QueryKeys[i];
    }
    q
  }

  /** Each query parameter carries the value it was built from. */
  lemma QueryValues(c: Client, timestamp: string, sign: string)
    ensures var q := Query(c, timestamp, sign);
      && Lookup(q, "LOP-DN") == Some(c.domain) && Lookup(q, "app_key") == Some(c.appKey)
      && Lookup(q, "access_token") == Some(c.accessToken)
      && Lookup(q, "timestamp") == Some(timestamp) && Lookup(q, "v") == Some(ProtocolVersion)
      && Lookup(q, "sign") == Some(sign) && Lookup(q, "algorithm") == Some(c.algorithm)
  {
    var q := Query(c, timestamp, sign);
    assert q == [("LOP-DN", c.domain), ("app_key", c.appKey), ("access_token", c.accessToken),
                 ("timestamp", timestamp), ("v", ProtocolVersion), ("sign", sign), ("algorithm", c.algorithm)];
    QueryKeysDistinct();
    assert forall i :: 0 <= i < 7 ==> q[i].0 == QueryKeys[i];
    LookupFirst(q, 0); LookupFirst(q, 1); LookupFirst(q, 2); LookupFirst(q, 3);
    LookupFirst(q, 4); LookupFirst(q, 5); LookupFirst(q, 6);
  }

  lemma QueryKeysDistinct()
    ensures forall i, j :: 0 <= j < i < |QueryKeys| ==> QueryKeys[j] != QueryKeys[i]
  {
    var k := QueryKeys;
    assert |k[0]| == 6 && |k[1]| == 7 && |k[2]| == 12 && |k[3]| == 9 && |k[4]| == 1 && |k[5]| == 4 && |k[6]| == 9;
    assert k[3][0] != k[6][0];
  }

  /** `compute_params(body, path)`: reads the clock once and uses that one timestamp both
      inside the signed content and as the `timestamp` parameter. It signs with the
      corrected `Signer.Sign`, so an unsupported algorithm is the NotImplementedError the
      code means to raise rather than the TypeError it raises as written. */
  function ComputeParams(host: Host, c: Client, body: string, path: string): (r: Result<Params>)
    requires DateTime.Valid(host.now)
    ensures r.Ok? <==> c.algorithm in Signer.Supported
    ensures r.Err? ==> r.error == NotImplementedError(Signer.UnsupportedMessage(c.algorithm))
    ensures r.Ok? ==> Keys(r.value) == QueryKeys
    ensures r.Ok? ==>
      && Lookup(r.value, "LOP-DN") == Some(c.domain)
      && Lookup(r.value, "app_key") == Some(c.appKey)
      && Lookup(r.value, "access_token") == Some(c.accessToken)
      && Lookup(r.value, "timestamp") == Some(DateTime.Format(host.now))
      && Lookup(r.value, "v") == Some(ProtocolVersion)
      && Lookup(r.value, "algorithm") == Some(c.algorithm)
    ensures r.Ok? ==>
      ProviderContent(r.value, path, body, c.appSecret)
        == Some(SigningContent(c, path, body, DateTime.Format(host.now)))
    ensures r.Ok? ==> ProviderAccepts(host.hashes, r.value, path, body, c.appSecret)
  {
    var timestamp := DateTime.Format(host.now);
    var content := SigningContent(c, path, body, timestamp);
    var sign :- Signer.Sign(host.hashes, c.algorithm, Utf8.Encode(content), Utf8.Encode(c.appSecret));
    QueryValues(c, timestamp, sign);
    Ok(Query(c, timestamp, sign))
  }

  // ---------------------------------------------------------------------------
  // Headers and requests

  /** The hours east of UTC: `int(-time.timezone / 3600)`, a true division truncated
      toward zero, so a half-hour zone west of UTC rounds toward zero, not down. */
  function UtcOffsetHours(timezone: int): (h: int)
    ensures -timezone >= 0 ==> 0 <= h * 3600 <= -timezone < h * 3600 + 3600
    ensures -timezone <= 0 ==> -timezone <= h * 3600 <= 0 && h * 3600 - 3600 < -timezone
  {
    Decimal.TruncDiv(-timezone, 3600)
  }

  function Headers(timezone: int): Params {
    [("lop-tz", Decimal.FromInt(UtcOffsetHours(timezone))),
     ("User-Agent", "lop-http/python3"),
     ("content-type", "application/json;charset=utf-8")]
  }

  /** Examples of the timezone hint: Beijing (UTC+8), India (UTC+5:30) and Newfoundland
      (UTC-3:30); the last is "-3" where a floor division would have said "-4". */
  lemma TimezoneHintExamples()
    ensures Lookup(Headers(-28800), "lop-tz") == Some("8")
    ensures Lookup(Headers(-19800), "lop-tz") == Some("5")
    ensures Lookup(Headers(12600), "lop-tz") == Some("-3")
  {
    assert UtcOffsetHours(12600) == -3;
    assert Decimal.FromInt(-3) == "-3";
  }

  datatype HttpRequest = HttpRequest(httpMethod: string, uri: string, params: Params, body: Bytes, headers: Params)

  /** `_request(path, data, method)`: the JSON body is signed as text and sent as its UTF-8 bytes. */
  function Request(host: Host, c: Client, path: string, data: Json.Value, httpMethod: string := "POST"): (r: Result<HttpRequest>)
    requires DateTime.Valid(host.now)
    ensures r.Ok? <==> c.algorithm in Signer.Supported
    ensures r.Ok? ==> r.value.httpMethod == httpMethod && r.value.headers == Headers(host.timezone)
    ensures r.Ok? ==> ProviderAcceptsRequest(host.hashes, r.value, c.baseUri, c.appSecret)
    ensures r.Ok? ==> |r.value.uri| >= |c.baseUri| && r.value.uri[|c.baseUri|..] == path
    ensures r.Ok? ==> Utf8.Decode(r.value.body) == Some(host.dumps(data))
  {
    var body := host.dumps(data);
    var params :- ComputeParams(host, c, body, path);
    var req := HttpRequest(httpMethod, c.baseUri + path, params, Utf8.Encode(body), Headers(host.timezone));
    Utf8.DecodeEncode(body);
    assert req.uri[..|c.baseUri|] == c.baseUri && req.uri[|c.baseUri|..] == path;
    Ok(req)
  }

  /** The provider's view of a request sent under `base`: the path after the base is the
      signed `method`, the decoded body is the signed `param_json`. */
  predicate ProviderAcceptsRequest(hs: Hmac.Hashes, req: HttpRequest, base: string, secret: string) {
    && |req.uri| >= |base| && req.uri[..|base|] == base
    && match Utf8.Decode(req.body)
       case Some(body) => ProviderAccepts(hs, req.params, req.uri[|base|..], body, secret)
       case None => false
  }

  datatype Endpoint = OrdersCreate | OrdersCancel | OrdersActualfeeQuery

  function Path(e: Endpoint): string {
    match e
    case OrdersCreate => "/ecap/v1/orders/create"
    case OrdersCancel => "/ecap/v1/orders/cancel"
    case OrdersActualfeeQuery => "/ecap/v1/orders/actualfee/query"
  }

  /** `orders_create`, `orders_cancel`, `orders_actualfee_query`: a POST to the base URI
      followed by the operation's fixed path, the same path that is signed as `method`. */
  function Call(host: Host, c: Client, e: Endpoint, data: Json.Value): (r: Result<HttpRequest>)
    requires DateTime.Valid(host.now)
    ensures r.Ok? <==> c.algorithm in Signer.Supported
    ensures r.Ok? ==> r.value.httpMethod == "POST" && r.value.uri == c.baseUri + Path(e)
    ensures r.Ok? ==> ProviderAcceptsRequest(host.hashes, r.value, c.baseUri, c.appSecret)
    ensures r.Ok? ==> Lookup(r.value.params, "timestamp") == Some(DateTime.Format(host.now))
  {
    var r := Request(host, c, Path(e), data);
    if r.Ok? then
      assert r.value.uri == c.baseUri + Path(e);
      r
    else r
  }

  /** The three operations address three different paths under `/ecap/v1/orders/`. */
  lemma PathsDistinct(e1: Endpoint, e2: Endpoint)
    ensures e1 != e2 ==> Path(e1) != Path(e2)
    ensures Path(e1)[..16] == "/ecap/v1/orders/"
  {
    if e1 != e2 {
      assert Path(OrdersCreate)[16] != Path(OrdersCancel)[16] || Path(OrdersCreate)[17] != Path(OrdersCancel)[17];
      assert |Path(OrdersActualfeeQuery)| != |Path(OrdersCreate)|;
    }
  }

  /** A client built with only credentials talks to production under domain ECAP with md5-salt. */
  lemma ClientDefaults(appKey: string, appSecret: string, accessToken: string)
    ensures NewClient(appKey, appSecret, accessToken)
      == Client("https://api.jdl.com", appKey, appSecret, accessToken, "ECAP", "md5-salt")
  {
  }
}

=== FILE: json.dfy ===
/** JSON values as Python's `json.loads` produces them, with the Python-level
    operations the modelled code applies to them: truthiness, dict lookup, `str()` and `int()`. */
module Json {
  import opened Base
  import Decimal

  /** A decoded JSON value. Objects keep their member order, as Python dicts do. */
  datatype Value =
    | JNull
    | JBool(b: bool)
    | JInt(i: int)
    | JFloat(f: real)
    | JStr(s: string)
    | JArr(items: seq<Value>)
    | JObj(members: seq<(string, Value)>)

  /** Python truthiness: None, False, 0, 0.0 and empty strings, lists and dicts are falsy. */
  predicate Truthy(v: Value) {
    match v
    case JNull => false
    case JBool(b) => b
    case JInt(i) => i != 0
    case JFloat(f) => f != 0.0
    case JStr(s) => s != ""
    case JArr(items) => items != []
    case JObj(members) => members != []
  }

  /** Python `v or d`. */
  function Or(v: Value, d: Value): (r: Value)
    ensures Truthy(v) ==> r == v
    ensures !Truthy(v) ==> r == d
  {
    if Truthy(v) then v else d
  }

  /** Member lookup in an object; Python keeps the last of duplicated keys. */
  function Get(members: seq<(string, Value)>, key: string): (r: Option<Value>)
    ensures r.Some? <==> exists i :: 0 <= i < |members| && members[i].0 == key
    decreases |members|
  {
    if |members| == 0 then None
    else
      var last := members[|members| - 1];
      if last.0 == key then Some(last.1)
      else
        var r := Get(members[..|members| - 1], key);
        assert forall i :: 0 <= i < |members| - 1 ==> members[..|members| - 1][i] == members[i];
        r
  }

  /** A member no later member shadows is the one found. */
  lemma {:induction false} GetAt(members: seq<(string, Value)>, i: int)
    requires 0 <= i < |members|
    requires forall j :: i < j < |members| ==> members[j].0 != members[i].0
    ensures Get(members, members[i].0) == Some(members[i].1)
    decreases |members|
  {
    if i < |members| - 1 {
      var front := members[..|members| - 1];
      assert front[i] == members[i];
      GetAt(front, i);
    }
  }

  /** Python `d[key]` on a decoded value: a KeyError for an absent key and a
      TypeError when the value is not a dict. */
  function Index(v: Value, key: string): (r: Result<Value>)
    ensures r.Ok? <==> v.JObj? && Get(v.members, key).Some?
    ensures r.Err? && v.JObj? ==> r.error == KeyError(key)
  {
    match v
    case JObj(ms) =>
      (match Get(ms, key)
       case Some(x) => Ok(x)
       case None => Err(KeyError(key)))
    case _ => Err(TypeError("value is not subscriptable by string"))
  }

  /** Python `str(v)` for the scalar values a carrier id can take; floats and containers
      use their Python repr, which `repr` supplies. */
  function PyStr(v: Value, repr: Value -> string): string {
    match v
    case JNull => "None"
    case JBool(b) => if b then "True" else "False"
    case JInt(i) => Decimal.FromInt(i)
    case JStr(s) => s
    case _ => repr(v)
  }

  /** Python `int(v)`: ints unchanged, bools as 0/1, floats truncated toward zero,
      strings parsed, anything else a TypeError. */
  function PyInt(v: Value): (r: Result<int>)
    ensures v.JInt? ==> r == Ok(v.i)
    ensures v.JNull? || v.JArr? || v.JObj? ==> r.Err? && r.error.TypeError?
  {
    match v
    case JInt(i) => Ok(i)
    case JBool(b) => Ok(if b then 1 else 0)
    case JFloat(f) => Ok(if f >= 0.0 then f.Floor else -((-f).Floor))
    case JStr(s) =>
      (match Decimal.ParseInt(s)
       case Some(n) => Ok(n)
       case None => Err(ValueError("invalid literal for int() with base 10")))
    case _ => Err(TypeError("int() argument must be a string, a bytes-like object or a real number"))
  }

  /** `str(int(x))` and `str(x)` agree on ints: the id the signature covers is the id parsed back. */
  lemma PyIntOfRenderedInt(n: int, repr: Value -> string)
    ensures PyInt(JStr(PyStr(JInt(n), repr))) == Ok(n)
  {
    Decimal.ParseFromInt(n);
  }
}

=== FILE: mix_rule.dfy ===
/** The `jd_mix_rule` delivery type (delivery_jd_mix_rule/models/delivery_carrier_inherit.py):
    prices come from the base-on-rule carrier once the provider confirms it can serve the
    address; shipments are priced by the rules and then registered with the provider for
    their waybill codes. The module's own API client is not part of this model: it is
    represented by its constructor arguments and by the replies it yields. */
module DeliveryJdMixRule {
  import opened Base
  import Json
  import opened Shipping

  /** The four system parameters of this delivery type. */
  datatype MixConfig = MixConfig(appKey: Option<string>, appSecret: Option<string>,
                                 accessToken: Option<string>, customerCode: Option<string>)

  const MissingConfig := "請在配置裡填寫必要信息"

  /** `jd_mix_rule_config_params`: all four values truthy and returned in order, else a ValidationError. */
  function ConfigParams(cfg: MixConfig): (r: Result<seq<string>>)
    ensures r.Ok? <==> TruthyText(cfg.appKey) && TruthyText(cfg.appSecret)
                       && TruthyText(cfg.accessToken) && TruthyText(cfg.customerCode)
    ensures r.Ok? ==> |r.value| == 4 && r.value[0] == cfg.appKey.value && r.value[1] == cfg.appSecret.value
                      && r.value[2] == cfg.accessToken.value && r.value[3] == cfg.customerCode.value
    ensures r.Ok? ==> forall i :: 0 <= i < |r.value| ==> r.value[i] != ""
    ensures r.Err? ==> r.error == ValidationError(MissingConfig)
  {
    if TruthyText(cfg.appKey) && TruthyText(cfg.appSecret) && TruthyText(cfg.accessToken) && TruthyText(cfg.customerCode)
    then Ok([cfg.appKey.value, cfg.appSecret.value, cfg.accessToken.value, cfg.customerCode.value])
    else Err(ValidationError(MissingConfig))
  }

  /** The constructor arguments of this module's API client. */
  datatype MixClient = MixClient(appKey: string, appSecret: string, accessToken: string,
                                 logXml: bool, prodEnvironment: bool)

  /** The `jd_mix_rule` fields of one `delivery.carrier` record. */
  datatype MixCarrier = MixCarrier(logXml: bool, prodEnvironment: bool)

  /** `jd_mix_rule_new_api`: the client from the first three parameters and the carrier's
      flags, with the customer code returned beside it. */
  function NewApi(cfg: MixConfig, c: MixCarrier): (r: Result<(MixClient, string)>)
    ensures r.Ok? <==> ConfigParams(cfg).Ok?
    ensures r.Err? ==> r.error == ValidationError(MissingConfig)
    ensures r.Ok? ==>
      && r.value.0 == MixClient(cfg.appKey.value, cfg.appSecret.value, cfg.accessToken.value, c.logXml, c.prodEnvironment)
      && r.value.1 == cfg.customerCode.value
  {
    var params :- ConfigParams(cfg);
    Ok((MixClient(params[0], params[1], params[2], c.logXml, c.prodEnvironment), params[|params| - 1]))
  }

  // ---------------------------------------------------------------------------
  // Rate and availability

  /** What the precheck call yields: an exception anywhere inside the `try` (building the
      addresses, the HTTP call, decoding the body), or the decoded body. */
  datatype PrecheckReply = PrecheckRaised | PrecheckReplied(body: Json.Value)

  const AddressUnsupported := RateResult(false, Json.JFloat(0.0), Some("地址不支持京東物流"), Some(Json.JBool(false)))

  function PrecheckPayload(order: SaleOrder, customerCode: string): Json.Value {
    Json.JArr([Json.JObj([
      ("senderContact", Json.JObj([("fullAddress", Json.JStr(order.company.address))])),
      ("receiverContact", Json.JObj([("fullAddress", Json.JStr(order.shippingPartner.address))])),
      ("orderOrigin", Json.JStr("1")),
      ("customerCode", Json.JStr(customerCode)),
      ("productsReq", Json.JObj([("productCode", Json.JStr(ProductCode))]))])])
  }

  /** `pre_check_result.get('success')` is truthy. `.get` runs outside the `try`, so a
      decoded body that is not an object raises AttributeError. */
  function PrecheckPassed(reply: PrecheckReply): (r: Result<bool>)
    ensures reply.PrecheckRaised? ==> r == Ok(false)
    ensures reply.PrecheckReplied? && !reply.body.JObj? ==> r.Err? && r.error.AttributeError?
    ensures reply.PrecheckReplied? && reply.body.JObj? ==>
      (r == Ok(true) <==> Json.Get(reply.body.members, "success").Some?
                          && Json.Truthy(Json.Get(reply.body.members, "success").value))
    ensures r.Ok? ==> reply.PrecheckRaised? || reply.body.JObj?
  {
    match reply
    case PrecheckRaised => Ok(false)
    case PrecheckReplied(body) =>
      if !body.JObj? then Err(AttributeError("get"))
      else
        match Json.Get(body.members, "success")
        case Some(v) => Ok(Json.Truthy(v))
        case None => Ok(false)
  }

  /** `jd_mix_rule_rate_shipment(order)`: `baseOnRule` is what `base_on_rule_rate_shipment`
      returns for the order. The configuration is read outside the `try`, so its error is
      raised, never turned into the address result. */
  function RateShipment(cfg: MixConfig, c: MixCarrier, order: SaleOrder, precheck: (MixClient, Json.Value) -> PrecheckReply,
                        baseOnRule: Result<RateResult>): (r: Result<RateResult>)
    ensures ConfigParams(cfg).Err? ==> r == Err(ValidationError(MissingConfig))
    ensures ConfigParams(cfg).Ok? ==>
      var api := NewApi(cfg, c).value;
      var passed := PrecheckPassed(precheck(api.0, PrecheckPayload(order, api.1)));
      && (passed == Ok(false) ==> r == Ok(AddressUnsupported))
      && (passed == Ok(true) ==> r == baseOnRule)
      && (passed.Err? ==> r == Err(passed.error))
    ensures r.Ok? && r.value.success ==> baseOnRule == r
  {
    var api :- NewApi(cfg, c);
    var passed :- PrecheckPassed(precheck(api.0, PrecheckPayload(order, api.1)));
    if !passed then Ok(AddressUnsupported) else baseOnRule
  }

  /** An exception in the precheck and a precheck answering without success give the same result. */
  lemma PrecheckExceptionIsFailure(cfg: MixConfig, c: MixCarrier, order: SaleOrder,
                                   body: seq<(string, Json.Value)>, baseOnRule: Result<RateResult>)
    requires ConfigParams(cfg).Ok?
    requires Json.Get(body, "success").None? || !Json.Truthy(Json.Get(body, "success").value)
    ensures RateShipment(cfg, c, order, (_, _) => PrecheckRaised, baseOnRule)
         == RateShipment(cfg, c, order, (_, _) => PrecheckReplied(Json.JObj(body)), baseOnRule)
         == Ok(AddressUnsupported)
  {
  }

  /** `_is_available_for_order(order)`: `super()` gives `inherited`; a `jd_mix_rule` carrier
      is available only when it is also rated successfully. `rate` is `rate_shipment(order)`. */
  function IsAvailable(inherited: bool, deliveryType: string, rate: Result<RateResult>): (r: Result<bool>)
    ensures !inherited ==> r == Ok(false)
    ensures deliveryType != "jd_mix_rule" ==> r == Ok(inherited)
    ensures inherited && deliveryType == "jd_mix_rule" ==>
      (r.Ok? <==> rate.Ok?) && (r.Ok? ==> (r.value <==> rate.value.success))
    ensures r == Ok(true) ==> inherited
  {
    if inherited && deliveryType == "jd_mix_rule" then
      var rated :- rate;
      Ok(rated.success)
    else Ok(inherited)
  }

  /** When the inherited check already fails, the rating is never consulted: the answer is
      the same whatever rating the carrier would have produced, even a raised error. */
  lemma UnavailableWithoutRating(deliveryType: string, rate1: Result<RateResult>, rate2: Result<RateResult>)
    ensures IsAvailable(false, deliveryType, rate1) == IsAvailable(false, deliveryType, rate2) == Ok(false)
  {
  }

  /** A carrier whose precheck fails is unavailable for the order. */
  lemma UnsupportedAddressUnavailable(cfg: MixConfig, c: MixCarrier, order: SaleOrder,
                                      precheck: (MixClient, Json.Value) -> PrecheckReply, baseOnRule: Result<RateResult>)
    requires ConfigParams(cfg).Ok?
    requires var api := NewApi(cfg, c).value;
      PrecheckPassed(precheck(api.0, PrecheckPayload(order, api.1))) == Ok(false)
    ensures IsAvailable(true, "jd_mix_rule", RateShipment(cfg, c, order, precheck, baseOnRule)) == Ok(false)
  {
  }

  // ---------------------------------------------------------------------------
  // Send and cancel

  /** The provider's parsed reply to a request made with a client at an endpoint. */
  datatype MixEndpoint = Create | Cancel

  type MixProvider = (MixClient, MixEndpoint, Json.Value) -> Response

  /** The create payload for one picking. No emptiness check guards the order search: an
      unknown origin gives an empty order, whose `order_line[0]` is an IndexError. The
      sender is the order's company. */
  function CreateFor(p: Picking, findOrder: Option<string> -> Option<SaleOrder>, customerCode: string): (r: Result<Json.Value>)
    ensures r.Ok? <==> findOrder(p.origin).Some? && |findOrder(p.origin).value.lineProducts| > 0
    ensures r.Err? ==> r.error.IndexError?
    ensures r.Ok? ==>
      var order := findOrder(p.origin).value;
      var o := PayloadObject(r.value);
      && r.value == CreatePayload(p.origin, order.company, order.shippingPartner, order.lineProducts[0],
                                  Json.JStr("1"), Json.JStr(customerCode))
      && o.Some?
      && Json.Get(o.value, "orderId") == Some(CharJson(p.origin))
      && Json.Get(o.value, "senderContact") == Some(ContactJson(order.company))
      && Json.Get(o.value, "receiverContact") == Some(ContactJson(order.shippingPartner))
      && Json.Get(o.value, "orderOrigin") == Some(Json.JStr("1"))
      && Json.Get(o.value, "customerCode") == Some(Json.JStr(customerCode))
  {
    match findOrder(p.origin)
    case None => Err(IndexError("tuple index out of range"))
    case Some(order) =>
      var product :- FirstProduct(order);
      CreatePayloadFields(p.origin, order.company, order.shippingPartner, product, Json.JStr("1"), Json.JStr(customerCode));
      Ok(CreatePayload(p.origin, order.company, order.shippingPartner, product, Json.JStr("1"), Json.JStr(customerCode)))
  }

  /** `result['data']['waybillCode']` of a successful create reply. */
  function CreatedWaybill(resp: Response): (r: Result<Json.Value>)
    ensures r.Ok? <==> resp.data.Some? && Json.Index(resp.data.value, "waybillCode").Ok?
    ensures r.Ok? ==> Json.Index(resp.data.value, "waybillCode") == Ok(r.value)
  {
    match resp.data
    case None => Err(KeyError("data"))
    case Some(data) => Json.Index(data, "waybillCode")
  }

  /** `lines` is the base-rule list after the payloads `sent` were registered: each sent
      payload was accepted and gave the tracking number of the line at its index; prices
      and the lines after the last registered one are the base list's. */
  predicate Registered(base: seq<ShipmentLine>, lines: seq<ShipmentLine>, sent: seq<Json.Value>,
                       provider: MixProvider, client: MixClient)
  {
    && |lines| == |base| && |sent| <= |base|
    && (forall k :: 0 <= k < |lines| ==> lines[k].exactPrice == base[k].exactPrice)
    && (forall k :: 0 <= k < |sent| ==>
          provider(client, Create, sent[k]).success
          && CreatedWaybill(provider(client, Create, sent[k])) == Ok(lines[k].trackingNumber))
    && (forall k :: |sent| <= k < |lines| ==> lines[k] == base[k])
  }

  /** Registering one more payload extends the registered prefix by one line. */
  lemma RegisterStep(base: seq<ShipmentLine>, lines: seq<ShipmentLine>, sent: seq<Json.Value>,
                     provider: MixProvider, client: MixClient, payload: Json.Value, w: Json.Value)
    requires Registered(base, lines, sent, provider, client) && |sent| < |lines|
    requires provider(client, Create, payload).success && CreatedWaybill(provider(client, Create, payload)) == Ok(w)
    ensures Registered(base, lines[|sent| := lines[|sent|].(trackingNumber := w)], sent + [payload], provider, client)
  {
    var i := |sent|;
    var lines' := lines[i := lines[i].(trackingNumber := w)];
    var sent' := sent + [payload];
    assert forall k :: 0 <= k < i ==> sent'[k] == sent[k] && lines'[k] == lines[k];
  }

  /** `sent` holds, in order, the create payloads of the first `|sent|` pickings. */
  predicate Prepared(pickings: seq<Picking>, findOrder: Option<string> -> Option<SaleOrder>,
                     customerCode: string, sent: seq<Json.Value>)
  {
    && |sent| <= |pickings|
    && forall k {:trigger CreateFor(pickings[k], findOrder, customerCode)} :: 0 <= k < |sent| ==>
         CreateFor(pickings[k], findOrder, customerCode) == Ok(sent[k])
  }

  /** Preparing the next picking's payload extends the prepared prefix by one. */
  lemma PrepareStep(pickings: seq<Picking>, findOrder: Option<string> -> Option<SaleOrder>,
                    customerCode: string, sent: seq<Json.Value>, payload: Json.Value)
    requires Prepared(pickings, findOrder, customerCode, sent) && |sent| < |pickings|
    requires CreateFor(pickings[|sent|], findOrder, customerCode) == Ok(payload)
    ensures Prepared(pickings, findOrder, customerCode, sent + [payload])
  {
    var sent' := sent + [payload];
    forall k | 0 <= k < |sent'|
      ensures CreateFor(pickings[k], findOrder, customerCode) == Ok(sent'[k])
    {
      if k < |sent| {
        assert sent'[k] == sent[k];
      }
    }
  }

  /** Why registering the reply to the payload of the picking at `index` fails, if it does:
      a rejected reply raises its `msg`, a reply without `data.waybillCode` raises that
      lookup's error, and an index past the base-rule list is an IndexError. */
  function RegisterFailure(resp: Response, index: int, lineCount: int): Option<Error> {
    if !resp.success then Some(RejectionError(resp.msg, "msg"))
    else if CreatedWaybill(resp).Err? then Some(CreatedWaybill(resp).error)
    else if index >= lineCount then Some(IndexError("list index out of range"))
    else None
  }

  /** The picking at `index` is registered: its payload is built and the reply to it is
      accepted with a waybill for a line of the base-rule list. */
  predicate Registers(p: Picking, index: int, findOrder: Option<string> -> Option<SaleOrder>, customerCode: string,
                      provider: MixProvider, client: MixClient, lineCount: int)
  {
    && CreateFor(p, findOrder, customerCode).Ok?
    && RegisterFailure(provider(client, Create, CreateFor(p, findOrder, customerCode).value), index, lineCount).None?
  }

  /** The loop stopped with error `e` after sending `sent`: every payload before the last
      one sent was registered, and either the next picking's payload could not be built
      (all sent ones registered) or the last one sent failed to register with `e`. */
  predicate Stopped(pickings: seq<Picking>, findOrder: Option<string> -> Option<SaleOrder>, customerCode: string,
                    provider: MixProvider, client: MixClient, lineCount: int, sent: seq<Json.Value>, e: Error)
  {
    && |sent| <= |pickings|
    && (forall k :: 0 <= k < |sent| - 1 ==> RegisterFailure(provider(client, Create, sent[k]), k, lineCount).None?)
    && ((&& |sent| < |pickings|
         && (forall k :: 0 <= k < |sent| ==> RegisterFailure(provider(client, Create, sent[k]), k, lineCount).None?)
         && CreateFor(pickings[|sent|], findOrder, customerCode) == Err(e))
        || (0 < |sent| && RegisterFailure(provider(client, Create, sent[|sent| - 1]), |sent| - 1, lineCount) == Some(e)))
  }

  /** The next picking's payload cannot be built: the loop stops before sending it. */
  lemma BuildFails(pickings: seq<Picking>, findOrder: Option<string> -> Option<SaleOrder>, customerCode: string,
                   provider: MixProvider, client: MixClient, lineCount: int, sent: seq<Json.Value>)
    requires |sent| < |pickings| && Prepared(pickings, findOrder, customerCode, sent)
    requires forall k :: 0 <= k < |sent| ==> RegisterFailure(provider(client, Create, sent[k]), k, lineCount).None?
    requires CreateFor(pickings[|sent|], findOrder, customerCode).Err?
    ensures Stopped(pickings, findOrder, customerCode, provider, client, lineCount, sent,
                    CreateFor(pickings[|sent|], findOrder, customerCode).error)
    ensures !Registers(pickings[|sent|], |sent|, findOrder, customerCode, provider, client, lineCount)
  {
  }

  /** The reply to the next picking's payload does not register: the loop stops after sending it. */
  lemma ReplyFails(pickings: seq<Picking>, findOrder: Option<string> -> Option<SaleOrder>, customerCode: string,
                   provider: MixProvider, client: MixClient, lineCount: int, sent: seq<Json.Value>,
                   payload: Json.Value, e: Error)
    requires |sent| < |pickings| && Prepared(pickings, findOrder, customerCode, sent)
    requires forall k :: 0 <= k < |sent| ==> RegisterFailure(provider(client, Create, sent[k]), k, lineCount).None?
    requires CreateFor(pickings[|sent|], findOrder, customerCode) == Ok(payload)
    requires RegisterFailure(provider(client, Create, payload), |sent|, lineCount) == Some(e)
    ensures Prepared(pickings, findOrder, customerCode, sent + [payload])
    ensures Stopped(pickings, findOrder, customerCode, provider, client, lineCount, sent + [payload], e)
    ensures !Registers(pickings[|sent|], |sent|, findOrder, customerCode, provider, client, lineCount)
  {
    PrepareStep(pickings, findOrder, customerCode, sent, payload);
    var sent' := sent + [payload];
    assert forall k :: 0 <= k < |sent| ==> sent'[k] == sent[k];
  }

  /** The next picking registers: the registered prefix grows by one. */
  lemma SucceedStep(pickings: seq<Picking>, findOrder: Option<string> -> Option<SaleOrder>, customerCode: string,
                    provider: MixProvider, client: MixClient, lineCount: int, sent: seq<Json.Value>, payload: Json.Value)
    requires |sent| < |pickings| && Prepared(pickings, findOrder, customerCode, sent)
    requires forall k :: 0 <= k < |sent| ==> Registers(pickings[k], k, findOrder, customerCode, provider, client, lineCount)
    requires forall k :: 0 <= k < |sent| ==> RegisterFailure(provider(client, Create, sent[k]), k, lineCount).None?
    requires CreateFor(pickings[|sent|], findOrder, customerCode) == Ok(payload)
    requires RegisterFailure(provider(client, Create, payload), |sent|, lineCount).None?
    ensures Prepared(pickings, findOrder, customerCode, sent + [payload])
    ensures forall k :: 0 <= k <= |sent| ==> Registers(pickings[k], k, findOrder, customerCode, provider, client, lineCount)
    ensures forall k :: 0 <= k <= |sent| ==>
      RegisterFailure(provider(client, Create, (sent + [payload])[k]), k, lineCount).None?
  {
    PrepareStep(pickings, findOrder, customerCode, sent, payload);
    var sent' := sent + [payload];
    assert forall k :: 0 <= k < |sent| ==> sent'[k] == sent[k];
  }

  /** What the loop keeps: the payloads sent so far are those of the first pickings, each of
      them registered, and the lines carry their waybills. */
  predicate Progress(base: seq<ShipmentLine>, lines: seq<ShipmentLine>, pickings: seq<Picking>,
                     findOrder: Option<string> -> Option<SaleOrder>, customerCode: string,
                     provider: MixProvider, client: MixClient, sent: seq<Json.Value>)
  {
    && Prepared(pickings, findOrder, customerCode, sent)
    && Registered(base, lines, sent, provider, client)
    && (forall k :: 0 <= k < |sent| ==> Registers(pickings[k], k, findOrder, customerCode, provider, client, |base|))
    && (forall k :: 0 <= k < |sent| ==> RegisterFailure(provider(client, Create, sent[k]), k, |base|).None?)
  }

  /** One round of the loop of `jd_mix_rule_send_shipping`: the next picking's order is
      registered, and a successful reply overwrites only the tracking number of the line at
      the picking's index; otherwise the round reports the error that stops the loop. */
  method RegisterNext(base: seq<ShipmentLine>, lines: seq<ShipmentLine>, pickings: seq<Picking>,
                      findOrder: Option<string> -> Option<SaleOrder>, customerCode: string,
                      provider: MixProvider, client: MixClient, sent: seq<Json.Value>)
    returns (sent': seq<Json.Value>, lines': seq<ShipmentLine>, stop: Option<Error>)
    requires |sent| < |pickings| && Progress(base, lines, pickings, findOrder, customerCode, provider, client, sent)
    ensures stop.None? <==> Registers(pickings[|sent|], |sent|, findOrder, customerCode, provider, client, |base|)
    ensures stop.None? ==>
      |sent'| == |sent| + 1 && Progress(base, lines', pickings, findOrder, customerCode, provider, client, sent')
    ensures stop.Some? ==>
      && Prepared(pickings, findOrder, customerCode, sent')
      && Stopped(pickings, findOrder, customerCode, provider, client, |base|, sent', stop.value)
  {
    var i := |sent|;
    var payload := CreateFor(pickings[i], findOrder, customerCode);
    if payload.Err? {
      BuildFails(pickings, findOrder, customerCode, provider, client, |base|, sent);
      return sent, lines, Some(payload.error);
    }
    var result := provider(client, Create, payload.value);
    var failure := RegisterFailure(result, i, |lines|);
    if failure.Some? {
      ReplyFails(pickings, findOrder, customerCode, provider, client, |base|, sent, payload.value, failure.value);
      return sent + [payload.value], lines, failure;
    }
    SucceedStep(pickings, findOrder, customerCode, provider, client, |base|, sent, payload.value);
    var waybill := CreatedWaybill(result).value;
    RegisterStep(base, lines, sent, provider, client, payload.value, waybill);
    sent' := sent + [payload.value];
    lines' := lines[i := lines[i].(trackingNumber := waybill)];
    stop := None;
  }

  /** The loop of `jd_mix_rule_send_shipping`: each picking's order is registered in turn;
      the first failure is raised and later pickings are not sent. */
  method RegisterEach(base: seq<ShipmentLine>, pickings: seq<Picking>, findOrder: Option<string> -> Option<SaleOrder>,
                      customerCode: string, provider: MixProvider, client: MixClient)
    returns (sent: seq<Json.Value>, outcome: Result<seq<ShipmentLine>>)
    ensures Prepared(pickings, findOrder, customerCode, sent)
    ensures outcome.Ok? <==>
      forall i :: 0 <= i < |pickings| ==> Registers(pickings[i], i, findOrder, customerCode, provider, client, |base|)
    ensures outcome.Ok? ==> |sent| == |pickings| && Registered(base, outcome.value, sent, provider, client)
    ensures outcome.Err? ==> Stopped(pickings, findOrder, customerCode, provider, client, |base|, sent, outcome.error)
  {
    var lines := base;
    sent := [];
    while |sent| < |pickings|
      invariant Progress(base, lines, pickings, findOrder, customerCode, provider, client, sent)
      decreases |pickings| - |sent|
    {
      var stop;
      sent, lines, stop := RegisterNext(base, lines, pickings, findOrder, customerCode, provider, client, sent);
      if stop.Some? {
        return sent, Err(stop.value);
      }
    }
    outcome := Ok(lines);
  }

  /** `jd_mix_rule_send_shipping(pickings)`: `baseOnRule` is what `base_on_rule_send_shipping`
      returns; it runs first, then the configuration is read, then the pickings are registered. */
  method SendShipping(baseOnRule: Result<seq<ShipmentLine>>, cfg: MixConfig, c: MixCarrier, pickings: seq<Picking>,
                      findOrder: Option<string> -> Option<SaleOrder>, provider: MixProvider)
    returns (sent: seq<Json.Value>, outcome: Result<seq<ShipmentLine>>)
    ensures baseOnRule.Err? ==> sent == [] && outcome == baseOnRule
    ensures baseOnRule.Ok? && ConfigParams(cfg).Err? ==> sent == [] && outcome == Err(ValidationError(MissingConfig))
    ensures |sent| <= |pickings|
    ensures outcome.Ok? ==> baseOnRule.Ok? && ConfigParams(cfg).Ok? && |sent| == |pickings|
    ensures baseOnRule.Ok? && ConfigParams(cfg).Ok? ==>
      var api := NewApi(cfg, c).value;
      var n := |baseOnRule.value|;
      && Prepared(pickings, findOrder, api.1, sent)
      && (outcome.Ok? <==> forall i :: 0 <= i < |pickings| ==> Registers(pickings[i], i, findOrder, api.1, provider, api.0, n))
      && (outcome.Ok? ==> Registered(baseOnRule.value, outcome.value, sent, provider, api.0))
      && (outcome.Err? ==> Stopped(pickings, findOrder, api.1, provider, api.0, n, sent, outcome.error))
  {
    if baseOnRule.Err? {
      return [], baseOnRule;
    }
    var apiResult := NewApi(cfg, c);
    if apiResult.Err? {
      return [], Err(apiResult.error);
    }
    var api := apiResult.value;
    sent, outcome := RegisterEach(baseOnRule.value, pickings, findOrder, api.1, provider, api.0);
  }

  /** `jd_mix_rule_cancel_shipment(pickings)`: as for `jd`, one cancel per picking in order
      until the first failure, whose `subMsg` is raised; `orderOrigin` is the text "1". */
  method CancelShipment(cfg: MixConfig, c: MixCarrier, pickings: seq<Picking>, provider: MixProvider)
    returns (sent: seq<Json.Value>, outcome: Result<()>)
    ensures ConfigParams(cfg).Err? ==> sent == [] && outcome == Err(ValidationError(MissingConfig))
    ensures |sent| <= |pickings|
    ensures ConfigParams(cfg).Ok? ==>
      var api := NewApi(cfg, c).value;
      && (forall i :: 0 <= i < |sent| ==> sent[i] == CancelPayload(pickings[i], Json.JStr("1"), Json.JStr(api.1)))
      && (outcome.Ok? <==> forall i :: 0 <= i < |pickings| ==>
            provider(api.0, Cancel, CancelPayload(pickings[i], Json.JStr("1"), Json.JStr(api.1))).success)
      && (outcome.Ok? ==> |sent| == |pickings|)
      && (outcome.Err? ==>
           && |sent| > 0
           && (forall i :: 0 <= i < |sent| - 1 ==> provider(api.0, Cancel, sent[i]).success)
           && !provider(api.0, Cancel, sent[|sent| - 1]).success
           && outcome.error == RejectionError(provider(api.0, Cancel, sent[|sent| - 1]).subMsg, "subMsg"))
  {
    var apiResult := NewApi(cfg, c);
    if apiResult.Err? {
      return [], Err(apiResult.error);
    }
    var api := apiResult.value;
    sent, outcome := CancelEach(pickings, Json.JStr("1"), Json.JStr(api.1), provider, api.0, Cancel);
  }
}

=== FILE: shipping.dfy ===
/** The Odoo records the carrier methods read and return (pickings, sale orders,
    partners, rate and shipment results) and the provider's parsed reply, shared by the
    `jd` and `jd_mix_rule` delivery types. */
module Shipping {
  import opened Base
  import Json

  /** A `stock.picking`: its source document name, its state and the waybill stored on it. */
  datatype Picking = Picking(origin: Option<string>, state: string, trackingRef: Option<string>)

  /** A `res.partner` (or the company): contact fields and `_display_address()`. */
  datatype Contact = Contact(name: Option<string>, mobile: Option<string>, phone: Option<string>, address: string)

  /** A `sale.order`: its shipping partner (a required field, so `partner_shipping_id or
      partner_id` always yields it), its company and the product names of its lines in order. */
  datatype SaleOrder = SaleOrder(
    shippingPartner: Contact,
    company: Contact,
    lineProducts: seq<Option<string>>)

  /** The provider's parsed JSON reply: the success flag and the members read on each path;
      None marks an absent member, which Python reports as KeyError when it is read. */
  datatype Response = Response(success: bool, msg: Option<string>, subMsg: Option<string>, data: Option<Json.Value>)

  /** The dict a `<type>_rate_shipment` method returns. */
  datatype RateResult = RateResult(success: bool, price: Json.Value, errorMessage: Option<string>,
                                   warningMessage: Option<Json.Value>)

  /** One element of the list a `<type>_send_shipping` method returns. */
  datatype ShipmentLine = ShipmentLine(exactPrice: Json.Value, trackingNumber: Json.Value)

  /** The value a Char field contributes to a JSON payload: its text, or `false` when unset. */
  function CharJson(v: Option<string>): (j: Json.Value)
    ensures v.Some? ==> j == Json.JStr(v.value)
    ensures v.None? ==> j == Json.JBool(false)
  {
    match v
    case Some(s) => Json.JStr(s)
    case None => Json.JBool(false)
  }

  /** `order.order_line[0].product_id.name`: an order without lines is an IndexError. */
  function FirstProduct(o: SaleOrder): (r: Result<Option<string>>)
    ensures r.Ok? <==> |o.lineProducts| > 0
    ensures r.Ok? ==> r.value == o.lineProducts[0]
    ensures r.Err? ==> r.error.IndexError?
  {
    if |o.lineProducts| == 0 then Err(IndexError("tuple index out of range")) else Ok(o.lineProducts[0])
  }

  /** A contact block of a create payload. */
  function ContactJson(c: Contact): Json.Value {
    Json.JObj([("name", CharJson(c.name)), ("mobile", CharJson(c.mobile)), ("phone", CharJson(c.phone)),
               ("fullAddress", Json.JStr(c.address))])
  }

  const ProductCode := "ed-m-0001"
  const SettleType := "3"
  const ChannelCode := "0030001"

  /** The one-element list sent to `orders_create`: both delivery types send the same
      fields and differ only in the `orderOrigin` encoding, the customer code source and
      the sender company. Every parcel is declared as quantity 1, weight 1, volume 10. */
  function CreatePayload(origin: Option<string>, sender: Contact, receiver: Contact, product: Option<string>,
                         orderOrigin: Json.Value, customerCode: Json.Value): Json.Value
  {
    Json.JArr([Json.JObj([
      ("orderId", CharJson(origin)),
      ("senderContact", ContactJson(sender)),
      ("receiverContact", ContactJson(receiver)),
      ("orderOrigin", orderOrigin),
      ("customerCode", customerCode),
      ("productsReq", Json.JObj([("productCode", Json.JStr(ProductCode))])),
      ("settleType", Json.JStr(SettleType)),
      ("cargoes", Json.JArr([Json.JObj([("name", CharJson(product)), ("quantity", Json.JInt(1)),
                                        ("weight", Json.JInt(1)), ("volume", Json.JInt(10))])])),
      ("CommonChannelInfo", Json.JObj([("channelCode", Json.JStr(ChannelCode))]))])])
  }

  const CancelReason := "用户发起取消"

  /** The one-element list sent to `orders_cancel` for one picking. */
  function CancelPayload(p: Picking, orderOrigin: Json.Value, customerCode: Json.Value): Json.Value {
    Json.JArr([Json.JObj([
      ("waybillCode", CharJson(p.trackingRef)),
      ("orderOrigin", orderOrigin),
      ("customerCode", customerCode),
      ("cancelReason", Json.JStr(CancelReason)),
      ("cancelReasonCode", Json.JStr("1")),
      ("cancelType", Json.JInt(1))])])
  }

  /** The single object inside a one-element payload list. */
  function PayloadObject(payload: Json.Value): Option<seq<(string, Json.Value)>> {
    if payload.JArr? && |payload.items| == 1 && payload.items[0].JObj? then Some(payload.items[0].members)
    else None
  }

  /** A cancel request names the picking's waybill and carries the caller's order-origin
      encoding and customer code. */
  lemma CancelPayloadFields(p: Picking, orderOrigin: Json.Value, customerCode: Json.Value)
    ensures var o := PayloadObject(CancelPayload(p, orderOrigin, customerCode));
      && o.Some?
      && Json.Get(o.value, "waybillCode") == Some(CharJson(p.trackingRef))
      && Json.Get(o.value, "orderOrigin") == Some(orderOrigin)
      && Json.Get(o.value, "customerCode") == Some(customerCode)
      && Json.Get(o.value, "cancelType") == Some(Json.JInt(1))
  {
    var ms := PayloadObject(CancelPayload(p, orderOrigin, customerCode)).value;
    assert |ms| == 6;
    assert |ms[0].0| == 11 && |ms[1].0| == 11 && |ms[2].0| == 12 && |ms[3].0| == 12 && |ms[4].0| == 16 && |ms[5].0| == 10;
    assert ms[0].0[0] != ms[1].0[0] && ms[2].0[1] != ms[3].0[1];
    Json.GetAt(ms, 0); Json.GetAt(ms, 1); Json.GetAt(ms, 2); Json.GetAt(ms, 5);
  }

  /** A create request carries the order name, the sender and receiver blocks, the
      caller's order-origin encoding and customer code, and the fixed product code. */
  lemma CreatePayloadFields(origin: Option<string>, sender: Contact, receiver: Contact, product: Option<string>,
                            orderOrigin: Json.Value, customerCode: Json.Value)
    ensures var o := PayloadObject(CreatePayload(origin, sender, receiver, product, orderOrigin, customerCode));
      && o.Some?
      && Json.Get(o.value, "orderId") == Some(CharJson(origin))
      && Json.Get(o.value, "senderContact") == Some(ContactJson(sender))
      && Json.Get(o.value, "receiverContact") == Some(ContactJson(receiver))
      && Json.Get(o.value, "orderOrigin") == Some(orderOrigin)
      && Json.Get(o.value, "customerCode") == Some(customerCode)
      && Json.Get(o.value, "productsReq") == Some(Json.JObj([("productCode", Json.JStr(ProductCode))]))
  {
    CreateMembers(CharJson(origin), ContactJson(sender), ContactJson(receiver), orderOrigin, customerCode,
                  Json.JObj([("productCode", Json.JStr(ProductCode))]), Json.JStr(SettleType),
                  Json.JArr([Json.JObj([("name", CharJson(product)), ("quantity", Json.JInt(1)),
                                        ("weight", Json.JInt(1)), ("volume", Json.JInt(10))])]),
                  Json.JObj([("channelCode", Json.JStr(ChannelCode))]));
  }

  /** The create request's member names are distinct, so each reads back its own value. */
  lemma CreateMembers(v0: Json.Value, v1: Json.Value, v2: Json.Value, v3: Json.Value, v4: Json.Value,
                      v5: Json.Value, v6: Json.Value, v7: Json.Value, v8: Json.Value)
    ensures var ms := [("orderId", v0), ("senderContact", v1), ("receiverContact", v2), ("orderOrigin", v3),
                       ("customerCode", v4), ("productsReq", v5), ("settleType", v6), ("cargoes", v7),
                       ("CommonChannelInfo", v8)];
      && Json.Get(ms, "orderId") == Some(v0) && Json.Get(ms, "senderContact") == Some(v1)
      && Json.Get(ms, "receiverContact") == Some(v2)
      && Json.Get(ms, "orderOrigin") == Some(v3) && Json.Get(ms, "customerCode") == Some(v4)
      && Json.Get(ms, "productsReq") == Some(v5)
  {
    var ms := [("orderId", v0), ("senderContact", v1), ("receiverContact", v2), ("orderOrigin", v3),
               ("customerCode", v4), ("productsReq", v5), ("settleType", v6), ("cargoes", v7),
               ("CommonChannelInfo", v8)];
    assert |ms[0].0| == 7 && |ms[1].0| == 13 && |ms[2].0| == 15 && |ms[3].0| == 11 && |ms[4].0| == 12;
    assert |ms[5].0| == 11 && |ms[6].0| == 10 && |ms[7].0| == 7 && |ms[8].0| == 17;
    assert ms[0].0[0] != ms[7].0[0] && ms[3].0[0] != ms[5].0[0];
    Json.GetAt(ms, 0); Json.GetAt(ms, 1); Json.GetAt(ms, 2); Json.GetAt(ms, 3); Json.GetAt(ms, 4); Json.GetAt(ms, 5);
  }

  const TrackingPrefix := "https://www.jdl.com/orderSearch/?waybillCodes="

  /** `'...?waybillCodes=%s' % picking.carrier_tracking_ref`: an unset reference is
      rendered by `%s` as the text "False". */
  function TrackingLink(ref: Option<string>): (link: string)
    ensures |link| >= |TrackingPrefix| && link[..|TrackingPrefix|] == TrackingPrefix
  {
    TrackingPrefix + (if ref.Some? then ref.value else "False")
  }

  /** The waybill code a tracking link queries for, if it is one. */
  function WaybillOf(link: string): Option<string> {
    if |link| >= |TrackingPrefix| && link[..|TrackingPrefix|] == TrackingPrefix
    then Some(link[|TrackingPrefix|..]) else None
  }

  /** The link queries exactly the stored waybill code. */
  lemma TrackingLinkRoundTrip(ref: string)
    ensures WaybillOf(TrackingLink(Some(ref))) == Some(ref)
  {
    assert TrackingLink(Some(ref))[|TrackingPrefix|..] == ref;
  }

  /** Distinct codes give distinct links, but an unset reference queries for the
      literal waybill "False". */
  lemma TrackingLinkInjective(a: Option<string>, b: Option<string>)
    ensures TrackingLink(a) == TrackingLink(b) <==>
      (a == b || (a == None && b == Some("False")) || (a == Some("False") && b == None))
  {
    var ta, tb := TrackingLink(a)[|TrackingPrefix|..], TrackingLink(b)[|TrackingPrefix|..];
    assert ta == (if a.Some? then a.value else "False");
    assert tb == (if b.Some? then b.value else "False");
    if TrackingLink(a) == TrackingLink(b) {
      assert ta == tb;
    }
  }

  /** `pickings.filtered(lambda p: p.state == 'done')`: the done pickings in their original order. */
  function DonePickings(ps: seq<Picking>): (ds: seq<Picking>)
    ensures forall i :: 0 <= i < |ds| ==> ds[i].state == "done" && ds[i] in ps
    ensures forall p :: p in ps && p.state == "done" ==> p in ds
    ensures |ds| <= |ps|
    ensures ps != [] && ps[0].state == "done" ==> ds != [] && ds[0] == ps[0]
  {
    if |ps| == 0 then []
    else if ps[0].state == "done" then [ps[0]] + DonePickings(ps[1..])
    else DonePickings(ps[1..])
  }

  /** The head of the filtered list is the first done picking. */
  lemma {:induction false} DonePickingsHead(ps: seq<Picking>, i: int)
    requires 0 <= i < |ps| && ps[i].state == "done"
    requires forall j :: 0 <= j < i ==> ps[j].state != "done"
    ensures DonePickings(ps) != [] && DonePickings(ps)[0] == ps[i]
  {
    if i > 0 {
      assert ps[0].state != "done";
      assert forall j :: 0 <= j < i - 1 ==> ps[1..][j] == ps[j + 1];
      DonePickingsHead(ps[1..], i - 1);
    }
  }

  /** Filtering twice keeps what filtering once keeps. */
  lemma {:induction false} DonePickingsIdempotent(ps: seq<Picking>)
    ensures DonePickings(DonePickings(ps)) == DonePickings(ps)
  {
    if |ps| > 0 {
      DonePickingsIdempotent(ps[1..]);
      if ps[0].state == "done" {
        var ds := DonePickings(ps);
        assert ds[0] == ps[0] && ds[1..] == DonePickings(ps[1..]);
      }
    }
  }

  /** Python `raise ValidationError(result[key])` on a failed reply: the error carries the
      member the caller names, or a KeyError when the reply lacks it. */
  function RejectionError(message: Option<string>, key: string): (e: Error)
    ensures message.Some? ==> e == ValidationError(message.value)
    ensures message.None? ==> e == KeyError(key)
  {
    match message
    case Some(m) => ValidationError(m)
    case None => KeyError(key)
  }

  /** The cancel loop shared by both delivery types: one request per picking, in order,
      stopping at the first reply whose success flag is false and raising its `subMsg`.
      `provider` answers a request made with `client` at `endpoint`; `sent` lists the
      payloads actually sent, so the pickings after a failure are visibly never attempted. */
  method CancelEach<C, E>(pickings: seq<Picking>, orderOrigin: Json.Value, customerCode: Json.Value,
                          provider: (C, E, Json.Value) -> Response, client: C, endpoint: E)
    returns (sent: seq<Json.Value>, outcome: Result<()>)
    ensures 0 < |sent| <= |pickings| || (sent == [] && outcome.Ok? && pickings == [])
    ensures forall i :: 0 <= i < |sent| ==> sent[i] == CancelPayload(pickings[i], orderOrigin, customerCode)
    ensures outcome.Ok? <==> forall i :: 0 <= i < |pickings| ==>
      provider(client, endpoint, CancelPayload(pickings[i], orderOrigin, customerCode)).success
    ensures outcome.Ok? ==> |sent| == |pickings|
    ensures outcome.Err? ==>
      && (forall i :: 0 <= i < |sent| - 1 ==> provider(client, endpoint, sent[i]).success)
      && !provider(client, endpoint, sent[|sent| - 1]).success
      && outcome.error == RejectionError(provider(client, endpoint, sent[|sent| - 1]).subMsg, "subMsg")
  {
    sent := [];
    var i := 0;
    while i < |pickings|
      invariant 0 <= i <= |pickings| && |sent| == i
      invariant forall k :: 0 <= k < i ==> sent[k] == CancelPayload(pickings[k], orderOrigin, customerCode)
      invariant forall k :: 0 <= k < i ==> provider(client, endpoint, sent[k]).success
    {
      var data := CancelPayload(pickings[i], orderOrigin, customerCode);
      sent := sent + [data];
      var result := provider(client, endpoint, data);
      if !result.success {
        return sent, Err(RejectionError(result.subMsg, "subMsg"));
      }
      i := i + 1;
    }
    outcome := Ok(());
  }
}

=== FILE: signer.dfy ===
/** `JDApi.sign`: dispatch on the algorithm name to an unsalted MD5 hex digest or to a
    base64-encoded HMAC keyed by the app secret (delivery_jd/api/jd_api.py). */
module Signer {
  import opened Base
  import opened Hmac
  import Hex
  import Base64

  const Md5Salt := "md5-salt"
  const HMacMD5 := "HMacMD5"
  const HMacSHA1 := "HMacSHA1"
  const HMacSHA256 := "HMacSHA256"
  const HMacSHA512 := "HMacSHA512"

  const Supported: set<string> := {Md5Salt, HMacMD5, HMacSHA1, HMacSHA256, HMacSHA512}

  /** The hash behind each HMAC algorithm name. */
  function HmacHash(algorithm: string): (h: Option<HashName>)
    ensures h.Some? <==> algorithm in Supported - {Md5Salt}
  {
    if algorithm == HMacMD5 then Some(MD5)
    else if algorithm == HMacSHA1 then Some(SHA1)
    else if algorithm == HMacSHA256 then Some(SHA256)
    else if algorithm == HMacSHA512 then Some(SHA512)
    else None
  }

  /** The signature for a supported algorithm name, None for any other name. */
  function Dispatch(hs: Hashes, algorithm: string, data: Bytes, secret: Bytes): (r: Option<string>)
    ensures r.Some? <==> algorithm in Supported
    ensures algorithm == Md5Salt ==>
              (r.Some? && Hex.Decode(r.value) == Some(hs.md5(data))
               && |r.value| == 32 && Hex.IsLowerHex(r.value))
    ensures HmacHash(algorithm).Some? ==>
              (var h := HmacHash(algorithm).value;
               r.Some? && Base64.Decode(r.value) == Some(Mac(hs, h, secret, data))
               && |r.value| == 4 * ((DigestSize(h) + 2) / 3))
  {
    if algorithm == Md5Salt then
      Hex.DecodeEncode(hs.md5(data));
      Some(Hex.Encode(hs.md5(data)))
    else match HmacHash(algorithm)
      case Some(h) =>
        Base64.DecodeEncode(Mac(hs, h, secret, data));
        Some(Base64.Encode(Mac(hs, h, secret, data)))
      case None => None
  }

  /** The method as written ends in `raise NotImplemented(...)`. `NotImplemented` is a
      constant, not an exception class, so calling it raises a TypeError and the message
      naming the algorithm is never delivered. */
  function SignAsWritten(hs: Hashes, algorithm: string, data: Bytes, secret: Bytes): (r: Result<string>)
    ensures r.Ok? <==> algorithm in Supported
    ensures r.Err? ==> r.error == TypeError("'NotImplementedType' object is not callable")
  {
    match Dispatch(hs, algorithm, data, secret)
    case Some(s) => Ok(s)
    case None => Err(TypeError("'NotImplementedType' object is not callable"))
  }

  function UnsupportedMessage(algorithm: string): string {
    "Algorithm " + algorithm + " not supported yet"
  }

  /** The signer as intended: an unknown algorithm raises NotImplementedError carrying a
      message that names it. Never falls back to a default algorithm. */
  function Sign(hs: Hashes, algorithm: string, data: Bytes, secret: Bytes): (r: Result<string>)
    ensures r.Ok? <==> algorithm in Supported
    ensures r.Err? ==>
              (r.error.NotImplementedError? && |r.error.message| >= 10 + |algorithm|
               && r.error.message[10..10 + |algorithm|] == algorithm)
  {
    match Dispatch(hs, algorithm, data, secret)
    case Some(s) => Ok(s)
    case None => Err(NotImplementedError(UnsupportedMessage(algorithm)))
  }

  /** Only the error differs between the written and the intended signer. */
  lemma SignAgreesOnSupported(hs: Hashes, algorithm: string, data: Bytes, secret: Bytes)
    ensures SignAsWritten(hs, algorithm, data, secret).Ok? <==> Sign(hs, algorithm, data, secret).Ok?
    ensures Sign(hs, algorithm, data, secret).Ok? ==>
      SignAsWritten(hs, algorithm, data, secret) == Sign(hs, algorithm, data, secret)
  {
  }

  /** Witness for the defect: with "HMacSHA384" the written code raises a TypeError whose
      text does not mention the algorithm, where NotImplementedError naming it was meant. */
  lemma UnsupportedNameLost(hs: Hashes, data: Bytes, secret: Bytes)
    ensures SignAsWritten(hs, "HMacSHA384", data, secret).Err?
    ensures SignAsWritten(hs, "HMacSHA384", data, secret).error.TypeError?
    ensures Sign(hs, "HMacSHA384", data, secret)
      == Err(NotImplementedError("Algorithm HMacSHA384 not supported yet"))
  {
    var name := "HMacSHA384";
    assert name[0] != Md5Salt[0];
    assert name[8] != HMacSHA512[8] && name[8] != HMacSHA256[8];
    assert |name| != |HMacMD5| && |name| != |HMacSHA1|;
    assert name !in Supported;
    assert UnsupportedMessage(name) == "Algorithm HMacSHA384 not supported yet";
  }

  /** `md5-salt` is unkeyed: the secret bytes never influence the signature. */
  lemma Md5SaltIgnoresSecret(hs: Hashes, data: Bytes, secret1: Bytes, secret2: Bytes)
    ensures Sign(hs, Md5Salt, data, secret1) == Sign(hs, Md5Salt, data, secret2)
    ensures Sign(hs, Md5Salt, data, secret1).Ok?
  {
  }
}

=== FILE: utf8.dfy ===
/** UTF-8 encoding of text (`str.encode("UTF-8")`), as the signer applies it to the
    signing content and to the app secret; see RFC 3629 section 3. */
module Utf8 {
  import opened Base

  /** The one to four bytes of one Unicode scalar value. */
  function EncodeChar(c: char): (bs: Bytes)
    ensures 1 <= |bs| <= 4
    ensures c as int < 0x80 <==> |bs| == 1
    ensures |bs| == 1 ==> bs[0] == c as int
  {
    var n := c as int;
    if n < 0x80 then [n]
    else if n < 0x800 then [0xC0 + n / 0x40, 0x80 + n % 0x40]
    else if n < 0x1_0000 then [0xE0 + n / 0x1000, 0x80 + (n / 0x40) % 0x40, 0x80 + n % 0x40]
    else [0xF0 + n / 0x4_0000, 0x80 + (n / 0x1000) % 0x40, 0x80 + (n / 0x40) % 0x40, 0x80 + n % 0x40]
  }

  function Encode(s: string): (bs: Bytes)
    ensures |bs| >= |s|
    decreases |s|
  {
    if |s| == 0 then [] else EncodeChar(s[0]) + Encode(s[1..])
  }

  /** Encoding distributes over concatenation, so the bytes of a concatenated signing
      string are the concatenation of the bytes of its parts. */
  lemma {:induction false} EncodeAppend(a: string, b: string)
    ensures Encode(a + b) == Encode(a) + Encode(b)
    decreases |a|
  {
    if |a| == 0 {
      assert a + b == b;
    } else {
      assert (a + b)[0] == a[0];
      assert (a + b)[1..] == a[1..] + b;
      EncodeAppend(a[1..], b);
    }
  }

  /** ASCII text encodes byte for byte to its code points. */
  lemma {:induction false} EncodeAscii(s: string)
    requires IsAscii(s)
    ensures |Encode(s)| == |s|
    ensures forall i :: 0 <= i < |s| ==> Encode(s)[i] == s[i] as int
    decreases |s|
  {
    if |s| > 0 {
      assert IsAscii(s[1..]) by {
        forall i | 0 <= i < |s| - 1 ensures s[1..][i] as int < 128 {
          assert s[1..][i] == s[i + 1];
        }
      }
      EncodeAscii(s[1..]);
    }
  }

  predicate IsContinuation(b: byte) {
    0x80 <= b < 0xC0
  }

  /** Decodes the first scalar value of well-formed UTF-8, returning it and the byte count. */
  function DecodeChar(bs: Bytes): Option<(char, nat)> {
    if |bs| == 0 then None
    else if bs[0] < 0x80 then Some((bs[0] as char, 1))
    else if 0xC0 <= bs[0] < 0xE0 && |bs| >= 2 && IsContinuation(bs[1]) then
      var n := (bs[0] as int - 0xC0) * 0x40 + (bs[1] as int - 0x80);
      if 0x80 <= n then Some((n as char, 2)) else None
    else if 0xE0 <= bs[0] < 0xF0 && |bs| >= 3 && IsContinuation(bs[1]) && IsContinuation(bs[2]) then
      var n := (bs[0] as int - 0xE0) * 0x1000 + (bs[1] as int - 0x80) * 0x40 + (bs[2] as int - 0x80);
      if 0x800 <= n && (n < 0xD800 || 0xE000 <= n) then Some((n as char, 3)) else None
    else if 0xF0 <= bs[0] < 0xF5 && |bs| >= 4 && IsContinuation(bs[1]) && IsContinuation(bs[2])
            && IsContinuation(bs[3]) then
      var n := (bs[0] as int - 0xF0) * 0x4_0000 + (bs[1] as int - 0x80) * 0x1000 + (bs[2] as int - 0x80) * 0x40 + (bs[3] as int - 0x80);
      if 0x1_0000 <= n < 0x11_0000 then Some((n as char, 4)) else None
    else None
  }

  /** `bytes.decode("UTF-8")` in strict mode: None where Python raises UnicodeDecodeError. */
  function Decode(bs: Bytes): Option<string>
    decreases |bs|
  {
    if |bs| == 0 then Some("")
    else match DecodeChar(bs)
      case None => None
      case Some((c, k)) =>
        if 0 < k <= |bs| then
          match Decode(bs[k..])
          case None => None
          case Some(rest) => Some([c] + rest)
        else None
  }

  lemma DecodeEncodeChar(c: char, rest: Bytes)
    ensures DecodeChar(EncodeChar(c) + rest) == Some((c, |EncodeChar(c)|))
  {
    var n := c as int;
    if n < 0x80 {
    } else if n < 0x800 {
      DecodeTwo(c, rest);
    } else if n < 0x1_0000 {
      DecodeThree(c, rest);
    } else {
      DecodeFour(c, rest);
    }
  }

  lemma DecodeTwo(c: char, rest: Bytes)
    requires 0x80 <= c as int < 0x800
    ensures DecodeChar(EncodeChar(c) + rest) == Some((c, 2))
  {
    var n := c as int;
    var q, r := n / 0x40, n % 0x40;
    assert n == q * 0x40 + r && 2 <= q < 0x20;
    var bs := EncodeChar(c) + rest;
    assert bs[0] == 0xC0 + q && bs[1] == 0x80 + r;
  }

  lemma DecodeThree(c: char, rest: Bytes)
    requires 0x800 <= c as int < 0x1_0000
    ensures DecodeChar(EncodeChar(c) + rest) == Some((c, 3))
  {
    var n := c as int;
    var q, m := n / 0x1000, n % 0x1000;
    var q1, r := m / 0x40, m % 0x40;
    assert n == q * 0x1000 + m && q < 0x10;
    assert m == q1 * 0x40 + r;
    assert n / 0x40 == q * 0x40 + q1;
    assert (n / 0x40) % 0x40 == q1;
    var bs := EncodeChar(c) + rest;
    assert bs[0] == 0xE0 + q && bs[1] == 0x80 + q1 && bs[2] == 0x80 + r;
  }

  lemma DecodeFour(c: char, rest: Bytes)
    requires 0x1_0000 <= c as int
    ensures DecodeChar(EncodeChar(c) + rest) == Some((c, 4))
  {
    var n := c as int;
    var q, m := n / 0x4_0000, n % 0x4_0000;
    var q1, m1 := m / 0x1000, m % 0x1000;
    var q2, r := m1 / 0x40, m1 % 0x40;
    assert n == q * 0x4_0000 + m && q < 5;
    assert m == q1 * 0x1000 + m1 && m1 == q2 * 0x40 + r;
    assert n / 0x1000 == q * 0x40 + q1;
    assert (n / 0x1000) % 0x40 == q1;
    assert n / 0x40 == (q * 0x40 + q1) * 0x40 + q2;
    assert (n / 0x40) % 0x40 == q2;
    var bs := EncodeChar(c) + rest;
    assert bs[0] == 0xF0 + q && bs[1] == 0x80 + q1 && bs[2] == 0x80 + q2 && bs[3] == 0x80 + r;
  }

  /** Round trip: decoding the UTF-8 encoding of any text gives the text back. */
  lemma {:induction false} DecodeEncode(s: string)
    ensures Decode(Encode(s)) == Some(s)
    decreases |s|
  {
    if |s| > 0 {
      var head := EncodeChar(s[0]);
      var bs := Encode(s);
      assert bs == head + Encode(s[1..]);
      DecodeEncodeChar(s[0], Encode(s[1..]));
      assert bs[|head|..] == Encode(s[1..]);
      DecodeEncode(s[1..]);
      assert [s[0]] + s[1..] == s;
    }
  }

  /** Hence encoding is injective: distinct texts never share their bytes. */
  lemma EncodeInjective(a: string, b: string)
    requires Encode(a) == Encode(b)
    ensures a == b
  {
    DecodeEncode(a);
    DecodeEncode(b);
  }
}
